=== FILE: README.md ===
# Carpool matching services, modelled in Dafny

This project models the core of a carpool service written in Python:

- **The geospatial registry and matcher** (`tools/matching.py`). It is a list of driver offers with validated registration, location update and removal. Update and removal act on the first record with a given id. A query keeps the drivers with enough seats, a start time within one hour of the request and a pickup distance within the radius. It ranks them stably by their rounded distance and keeps the first `top_n`.
- **The city-pair registry** (`tools/ride_matcher.py`). It holds `Driver` objects keyed by nothing: duplicate ids are allowed. It covers their dict/rehydrate round trip through `drivers.json`, the demo seeding, registration, the exact-city search that logs every query, and this module's own seat lock.
- **The web layer's seat lock** (`app.py`). `app.py` redefines `confirm_ride`, and that definition is the one its `/lock_seats` and `/confirm_ride` routes call. The model also covers the status those routes report, the double logging of `/search_rides`, and start-up (rehydrate, then seed five demo drivers).
- **The JSON-file helpers** (`tools/memory_store.py`). `save_driver` is an upsert by id and `save_ride_request` is an append.
- **The pausable job simulator** (`tools/long_runner.py`). A job moves between running, paused and completed.

Every operation is a pure function from the old state to a new state and a reply. A state is a registry sequence, a job map, or an optional sequence of records standing for a JSON file that may not exist. The Python scalars these functions handle are modelled in `PyValues`:
- `Value` is int, float, bool, str or None.
- Python's `==` is modelled, including `1 == 1.0 == True`.
- `isinstance(x, int)` also holds of bools.
- `int(...)` truncates floats toward zero and parses strings.
- `str(n)` and the `s[:n]` slice are modelled, including a negative `n`.

The great-circle distance and `round(x, 2)` are function parameters, so every matching property holds for any distance and rounding function.

The code does fewer checks than a reader might expect, and the model keeps these gaps:
- No registration checks the range of the coordinates: any number is a valid latitude or longitude.
- No registration rejects an empty id: any string is accepted in `tools/matching.py`, and any value in `tools/ride_matcher.py`.
- Both registries accept a second driver with an id that is already present.
- Neither seat lock reports a missing driver as an error: `confirm_ride` returns `None` for an unknown id.

One gap is not kept: the seat lock takes no lock. The model runs each booking as one step, so its seat guarantees hold only for bookings that do not overlap (see "## Left out").

## Model

| member | source | states |
|---|---|---|
| PyValues.ToInt | ride_matcher.py:15 | `int(v)`: ints and bools convert exactly, floats lose their fraction toward zero, `None` raises TypeError |
| PyValues.Decimal | ride_matcher.py:60 | `str(n)` is a run of digits without a leading zero that denotes `n` |
| PyValues.ParseDecimal | ride_matcher.py:92 | `int` applied to `str(n)`, with or without a sign, gives back `n` or `-n` |
| PyValues.SliceTo | matching.py:96 | `s[:n]` is a prefix of `s` of length `min(n, len)`, or `len + n` (at least 0) for negative `n` |
| Matching.Register | matching.py:20-41 | non-numeric lat/lon, non-int or non-positive seats, and a non-str id each give their own error and leave the store unchanged, checked in that order; otherwise exactly one record with the given fields is appended and earlier records are unchanged |
| Matching.RegisterAcceptsDuplicateId | matching.py:29-41 | registering an id already present succeeds and leaves two records with that id |
| Matching.FirstIndex | matching.py:49-50 | the scan stops at the first record with the id; it is absent exactly when no record has the id |
| Matching.UpdateLocation | matching.py:43-55 | non-numeric coordinates or an unknown id give an error with no change; otherwise only lat/lon of the first record with the id change and every other field and record is kept |
| Matching.Remove | matching.py:57-65 | an unknown id gives "driver not found" with no change; otherwise exactly the first record with the id is deleted and the rest keep their order |
| Matching.RemoveDropsOneRecord | matching.py:59-63 | removal lowers the number of records with that id by exactly one |
| Matching.DefaultQuery | matching.py:67 | the radius defaults to 5 km and `top_n` to 5 |
| Matching.Candidates | matching.py:75-92 | a driver's entry is a candidate if and only if its seats are at least the seats needed, its start time is within 3600 s and its unrounded distance is within the radius; the entry reports the rounded distance |
| Matching.CandidatesAppend | matching.py:75-92 | candidates keep store order: those of a concatenation are those of each part in turn |
| Matching.CandidatesSingle | matching.py:76-83 | one driver contributes its entry exactly when it passes all three filters |
| Matching.SortByDistance | matching.py:95 | the sort's output is ordered by reported distance and is a permutation of its input |
| Matching.SortIsStable | matching.py:95 | the sort is stable: for every distance, the entries at that distance keep their input order |
| Matching.FindMatches | matching.py:67-96 | the result is "no suitable drivers found" exactly when no driver passes the filters; otherwise the list is ordered by reported distance and holds exactly `min(top_n, #candidates)` entries (for a negative `top_n`, all but the last `-top_n`, as Python slicing gives); the store is not touched |
| Matching.FindMatchesSound | matching.py:76-92 | every reported entry is the entry of one stored driver, so its id, vehicle, pickup point, time and seats are that driver's; the driver has enough seats, a start time in the window and an unrounded distance within the radius, and the entry reports that distance rounded |
| Matching.FindMatchesKeepsNearestFirst | matching.py:94-96 | truncation drops only the far end: no candidate nearer than a reported one is left out; at each distance the reported entries are the earliest candidates in store order; and at every distance below the farthest reported one, every candidate is reported, as many times as it occurs |
| Matching.FindMatchesComplete | matching.py:72-96 | when `top_n` is at least the number of candidates, every eligible driver is reported and the list is a permutation of the candidates |
| RideMatcher.ParameterSetsAgree | ride_matcher.py:12-22 | the keyword sets used by `Driver(**m)` are the ten parameter names, split into eight required ones and the two defaulted cities |
| RideMatcher.ToRecord | ride_matcher.py:24-36 | `d.dict()` has exactly the ten parameter names as keys, with seats as an int |
| RideMatcher.FromRecord | ride_matcher.py:12-22 | `Driver(**m)` raises TypeError on an unknown key or a missing required key; otherwise it fails exactly when `int(seats)` does; `from_city`/`to_city` default to None |
| RideMatcher.DictRoundTrip | ride_matcher.py:12-36 | `Driver(**d.dict())` reproduces every field of `d` |
| RideMatcher.RecordRoundTrip | ride_matcher.py:12-36 | a rehydrated record serialises back to itself, except that seats are normalised by `int` and missing cities become None |
| RideMatcher.Snapshot | ride_matcher.py:43-46 | the list written to drivers.json holds one dict per driver, in order |
| RideMatcher.Rehydrate | ride_matcher.py:139-141 | start-up rehydration succeeds exactly when every persisted record does, giving one driver per record in file order |
| RideMatcher.SnapshotRehydrates | ride_matcher.py:139-141 | rehydrating the dicts of a driver list gives that list back |
| RideMatcher.LoadDrivers | ride_matcher.py:50-54 | a missing drivers.json loads as no drivers; otherwise loading succeeds exactly when every stored record rehydrates, with one driver per record |
| RideMatcher.PersistThenLoad | ride_matcher.py:43-54 | what save_drivers_to_file writes, load plus rehydration reads back unchanged; a missing file loads as no drivers |
| RideMatcher.DemoRecordRehydrates | ride_matcher.py:58-66 | `Driver(**d)` on a demo dictionary cannot raise |
| RideMatcher.SeedDemoDrivers | ride_matcher.py:58-66 | seeding `n` appends `max(n, 0)` drivers after the existing ones; driver `k` has id `Driver{k}`, 4 seats, a Sedan, Delhi to Mumbai, leaving 900 s after its clock reading |
| RideMatcher.SeededIdsDistinct | ride_matcher.py:60 | the seeded ids are pairwise distinct |
| RideMatcher.FirstMissing | ride_matcher.py:71-82 | the KeyError is for the first of the ten keys, in argument order, that the request lacks |
| RideMatcher.DriverOfFields | ride_matcher.py:71-82 | the registered driver's dict repeats every submitted field, with seats converted |
| RideMatcher.Register | ride_matcher.py:70-85 | registration succeeds exactly when all ten keys are present and `int(seats)` succeeds; it then appends exactly one driver, rewrites drivers.json with the whole list and returns `driver_registered` with the submitted id |
| RideMatcher.RegisterAllowsDuplicateIds | ride_matcher.py:83 | registering an existing id leaves two drivers with it |
| RideMatcher.CityMatches | ride_matcher.py:94-97 | the search returns at most one dict per registered driver |
| RideMatcher.CityMatchesSpec | ride_matcher.py:94-97 | a registered driver's dict is returned if and only if its cities equal the query's under `==` and its seats are at least the seats needed; nothing else is returned and the list is no longer than the registry |
| RideMatcher.CityMatchesAppend | ride_matcher.py:94-97 | matches keep registry order with nothing dropped: the matches of a concatenation are those of each part in turn |
| RideMatcher.CityMatchesSingle | ride_matcher.py:95-97 | one driver is matched exactly when it serves the trip |
| RideMatcher.FindMatches | ride_matcher.py:89-109 | seats default to 1 and the search raises only when `int(seats)` does; the rides are the city matches, the drivers and drivers.json are unchanged, and exactly one request record is appended to the request log |
| RideMatcher.FirstWithId | ride_matcher.py:128-129 | the seat lock acts on the first driver whose id equals the requested one under `==` |
| RideMatcher.Decrement | ride_matcher.py:131-132 | only the chosen driver's seats change, by exactly the booked amount, and drivers.json is rewritten to match |
| RideMatcher.ConfirmRideAsWritten | ride_matcher.py:127-134 | None with no change for an unknown id and False with no change for too few seats; never True: whenever seats suffice it raises TypeError, after the seats have been taken and drivers.json rewritten |
| App.ConfirmRide | app.py:58-65 | True exactly when the first driver with the id has enough seats, which then drop by exactly `seats_booked` and stay at 0 or more (for a booking that no other booking overlaps); False with no change when too few; None with no change for an unknown id; no other driver changes |
| App.AsWrittenDiffersOnlyOnSuccess | app.py:58-65 | the module copy in ride_matcher.py reaches the same state in every case but raises where this one returns True |
| App.DemoBookingRaisesInModuleCopy | ride_matcher.py:127-134 | booking one seat with demo driver `Driver1` returns True here, leaving 3 seats, and raises TypeError in the module copy |
| App.ConfirmRideKeepsSeatsNonNegative | app.py:61-62 | if no seat count is negative before a lock, none is after, for a lock that no other lock overlaps |
| App.FirstWithIdAfterConfirm | app.py:59-62 | locking seats never changes which driver an id resolves to |
| App.BookingsConserveSeats | app.py:58-65 | over any sequence of bookings against one id, the seats taken equal the sum of the successful bookings and never go below zero, when the bookings run one after another; with positive bookings every refused booking exceeds what is finally left |
| App.LockSeats | app.py:93-99 | `int(seats)` (default 1) may raise; otherwise the status is "locked" exactly when confirm_ride returned True and "failed" otherwise |
| App.SubmitConfirmJob | app.py:70-75 | the seat count is converted before anything is recorded; then the job is recorded as "processing" |
| App.RunConfirmJob | app.py:77-80 | the thread records "completed" exactly when confirm_ride returned True and "failed" otherwise; other jobs are untouched |
| App.JobStatus | app.py:86-89 | an unknown job reads "unknown" |
| App.ConfirmJobLifecycle | app.py:75-80 | a submitted job reads "processing" until it runs, then "completed" exactly when /lock_seats with the same request would have reported "locked" |
| App.SearchRides | app.py:37-53 | a search returns the city matches and leaves the drivers unchanged; it appends exactly two records to the request log: one from find_matches, then the route's own |
| App.Startup | app.py:5-11 | start-up fails exactly when rehydration does; otherwise it yields the persisted drivers plus five demo drivers |
| App.RestartRestoresSavedDrivers | app.py:5-11 | a restart brings back every saved driver in order, followed by five new demo drivers; a saved `Driver1` comes back next to a new one with the same id |
| MemoryStore.ReadAll | memory_store.py:9-13 | a missing file reads as the empty list; an existing one reads as its records |
| MemoryStore.SaveRideRequest | memory_store.py:35-39 | the request log is appended with exactly one record at the end, earlier records unchanged; a missing file counts as empty |
| MemoryStore.KeepOthersSpec | memory_store.py:20 | the filtered list holds every stored record whose id differs from the new one, and nothing else |
| MemoryStore.KeepOthersAppend | memory_store.py:20 | the filter keeps file order: the records kept from a concatenation are those kept from each part, in turn |
| MemoryStore.KeepOthersSingle | memory_store.py:20 | one record is kept exactly when its id differs from the new one |
| MemoryStore.SaveDriver | memory_store.py:17-23 | raises KeyError exactly when a stored record lacks "id", or the file is non-empty and the new record lacks it; otherwise the new record is written last, after the stored records whose id differs from it, in file order |
| MemoryStore.WithIdKeepOthers | memory_store.py:20 | filtering removes every record of the id and keeps each other id's records in content and order |
| MemoryStore.SaveDriverLeavesOneRecord | memory_store.py:20-21 | after save_driver exactly one record has the id: the new one |
| MemoryStore.SaveDriverKeepsOthers | memory_store.py:20 | for each other id, the records with that id keep their content and relative order |
| MemoryStore.SaveDriverIdempotent | memory_store.py:20-21 | saving the same record twice writes the same list as saving it once |
| MemoryStore.SaveDriverWithoutIdBlocksLaterSaves | memory_store.py:17-21 | a record without "id" is accepted into an empty file, after which every save_driver raises KeyError |
| LongRunner.StartLongJob | long_runner.py:20-26 | a new job is running, has no result and an open gate; other jobs are unchanged |
| LongRunner.PauseJob | long_runner.py:28-34 | only a running job pauses; otherwise "not found or not running" with no change; other jobs are unchanged |
| LongRunner.ResumeJob | long_runner.py:36-42 | only a paused job resumes; otherwise "not found or not paused" with no change; other jobs are unchanged |
| LongRunner.Complete | long_runner.py:6-18 | at timer expiry the job becomes completed with result `driver_confirmed` and its own id, from running or paused alike |
| LongRunner.JobStatus | long_runner.py:44-48 | an unknown id is "not found"; otherwise the job's status and result are reported |
| LongRunner.OperationsKeepGateConsistent | long_runner.py:20-42 | start, pause, resume and completion keep a running job's event set and a paused job's event cleared |
| LongRunner.PauseThenResume | long_runner.py:28-42 | pausing a running job and resuming it restores the job table exactly |
| LongRunner.CompletedJobIsFinal | long_runner.py:17-42 | a completed job can be neither paused nor resumed and reports its confirmation result |

## Findings

| source | as written | input that shows it | evidently intended | confidence | as-written member | corrected member |
|---|---|---|---|---|---|---|
| ride_matcher.py:132 | `save_drivers_to_file()()` calls the `None` that the save returns, so `confirm_ride` raises TypeError after it has decremented the seats and rewritten drivers.json | `confirm_ride("Driver1", 1)` with the demo drivers seeded | save once, then return True, as the copy at app.py:58-65 does | high; not executed | RideMatcher.ConfirmRideAsWritten | App.ConfirmRide |

`App.AsWrittenDiffersOnlyOnSuccess` and `App.DemoBookingRaisesInModuleCopy` compare the two definitions. `app.py` shadows the imported copy, so the routes never reach the faulty one. The app's seat-lock model, the job statuses and the lock route all use the corrected definition.

## Left out

- The haversine formula (matching.py:9-18) and `round(distance, 2)` are parameters. So their floating-point behaviour, symmetry and zero self-distance are not modelled.
- Locks, threads and the asyncio loop (matching.py:7, app.py:77-82, long_runner.py:6-16) are left out. The model runs each operation as one atomic step. The source guarantees this only for the driver list of `tools/matching.py`, which is the only code that holds a lock. The background confirmation is modelled as a separate later step. Its two-second delay and any race with polling are not modelled.
- App.BookingsConserveSeats: its results, and the non-negative seats of App.ConfirmRide and App.ConfirmRideKeepsSeatsNonNegative, hold only for bookings that do not overlap. `confirm_ride` (app.py:58-65) and the list and file updates in ride_matcher.py run without a lock. They are called from the threaded development server that `app.run(debug=True)` (app.py:161) starts and from the worker threads of app.py:77-82. Two overlapping bookings of one driver can both pass the seat check at app.py:61 before either decrements at app.py:62, and the seats can then go below zero.
- Routes that only wrap modelled functions, `/chat`, the templates and `/` are UI and are not modelled. This includes `/get_drivers` (a `Snapshot`), `/register_driver` and `/save_ride_request`.
- JSON files are optional sequences of flat records. I/O errors, malformed JSON, non-list file contents and nested list or dict values are not modelled.
- Clock readings, uuids and request ids are inputs. `time.time()` and `uuid4()` have no model.
- `Value` has no NaN or infinity. Floats are exact reals, so float rounding in subtraction and comparison is not modelled.
- PyValues.ToInt: string parsing accepts only an optional sign and ASCII digits. Python also accepts surrounding whitespace, underscores and other Unicode digits.
- Matching.Register: stores lat/lon and seats as numbers. A `True` becomes 1, where Python keeps the bool object. `start_time` is taken as a number, although the source does not check it. A non-numeric value would make a later find_matches raise TypeError, but only in a query where that driver has enough seats, since the seat filter runs first (matching.py:76-78).
- Matching.UpdateLocation: stores the new lat/lon as numbers. A `True` becomes 1, where Python stores the bool object, which find_matches then reports as `pickup_lat` or `pickup_lon`.
- Matching.UpdateLocation: takes the id as a string. A non-string id matches no stored id, which the source reports as "driver not found".
- Matching.Remove: takes the id as a string, for the same reason.
- Matching.FindMatches: takes `seats_needed` and `top_n` as integers, and `lat`, `lon`, `time` and `max_distance_km` as reals. Python accepts any value and raises TypeError once a driver reaches the filter that uses a non-numeric one: `seats_needed` at matching.py:76, `time` at matching.py:78, `lat`/`lon` inside the distance at matching.py:80 and `max_distance_km` at matching.py:81. With no driver stored, or none reaching that filter, Python returns "no suitable drivers found" instead. A `top_n` of None would return every match, because `matches[:None]` is the whole list; a `top_n` of another non-integer type raises TypeError at matching.py:96, but only when some driver matched. The destination arguments are accepted and, as in the source, unused.
- RideMatcher.SeedDemoDrivers: takes the count explicitly. The default `n=10` (ride_matcher.py:58) is not modelled, because app.py:11 always passes 5.
- MemoryStore.SaveDriverIdempotent: requires the record to carry "id". Without one, a second save raises KeyError (see MemoryStore.SaveDriverWithoutIdBlocksLaterSaves).
- LongRunner.Complete: models only the loop's final effect. `duration_sec`, the sleeps and the wait on the pause event are not modelled.
- agent_main.py is not part of this model. It only wires the functions into an agent. Its call `seed_demo_drivers(num_drivers=10)` would raise TypeError, because the parameter is named `n`.

=== FILE: app.dfy ===
/**
 The web layer's own logic (app.py): the seat-lock function it defines, which
 shadows the one imported from tools/ride_matcher.py and is the one its routes
 call; the way /lock_seats and /confirm_ride turn its result into a status; the
 double logging of /search_rides; and the start-up sequence (rehydrate, then
 seed five demo drivers).
 */
module App {
  import opened PyValues
  import MemoryStore
  import RideMatcher

  type State = RideMatcher.State

  // ---------------------------------------------------------------- seat lock

  /**
   confirm_ride: find the first driver with the id; if it has enough seats, take them and
   rewrite drivers.json (True), otherwise change nothing (False). An unknown id falls out
   of the loop, returning None.
   */
  function ConfirmRide(st: State, driverId: Value, seatsBooked: int): (r: (State, Option<bool>))
    ensures r.1.None? <==> forall j :: 0 <= j < |st.drivers| ==> !Eq(st.drivers[j].id, driverId)
    ensures r.1 != Some(true) ==> r.0 == st
    ensures r.1 == Some(true) <==>
      RideMatcher.FirstWithId(st.drivers, driverId).Some? &&
      st.drivers[RideMatcher.FirstWithId(st.drivers, driverId).value].seats >= seatsBooked
    ensures r.1 == Some(true) ==>
      var i := RideMatcher.FirstWithId(st.drivers, driverId).value;
      && |r.0.drivers| == |st.drivers|
      && r.0.drivers[i] == st.drivers[i].(seats := st.drivers[i].seats - seatsBooked)
      && r.0.drivers[i].seats >= 0
      && (forall j :: 0 <= j < |st.drivers| && j != i ==> r.0.drivers[j] == st.drivers[j])
      && r.0.driversFile == Some(RideMatcher.Snapshot(r.0.drivers))
      && r.0.requestsFile == st.requestsFile
  {
    match RideMatcher.FirstWithId(st.drivers, driverId)
    case None => (st, None)
    case Some(i) =>
      if st.drivers[i].seats >= seatsBooked then (RideMatcher.Decrement(st, i, seatsBooked), Some(true))
      else (st, Some(false))
  }

  /**
   The copy in ride_matcher.py reaches the same state as this one in every case, but where
   this one returns True that one raises TypeError.
   */
  lemma AsWrittenDiffersOnlyOnSuccess(st: State, driverId: Value, seatsBooked: int)
    ensures RideMatcher.ConfirmRideAsWritten(st, driverId, seatsBooked).0 == ConfirmRide(st, driverId, seatsBooked).0
    ensures ConfirmRide(st, driverId, seatsBooked).1 == Some(true) ==>
      RideMatcher.ConfirmRideAsWritten(st, driverId, seatsBooked).1 == Raised(TypeError)
    ensures ConfirmRide(st, driverId, seatsBooked).1 != Some(true) ==>
      RideMatcher.ConfirmRideAsWritten(st, driverId, seatsBooked).1 == Ok(ConfirmRide(st, driverId, seatsBooked).1)
  {
  }

  /** With the five demo drivers, booking one seat with Driver1 succeeds here but raises in the module copy. */
  lemma DemoBookingRaisesInModuleCopy(clock: nat -> int)
    ensures var st := RideMatcher.State(RideMatcher.SeedDemoDrivers([], 5, clock), None, None);
      && ConfirmRide(st, StrV("Driver1"), 1).1 == Some(true)
      && ConfirmRide(st, StrV("Driver1"), 1).0.drivers[0].seats == 3
      && RideMatcher.ConfirmRideAsWritten(st, StrV("Driver1"), 1).1 == Raised(TypeError)
  {
    var st := RideMatcher.State(RideMatcher.SeedDemoDrivers([], 5, clock), None, None);
    assert Decimal(1) == "1";
    assert st.drivers[0].id == StrV("Driver1");
    assert RideMatcher.FirstWithId(st.drivers, StrV("Driver1")) == Some(0);
  }

  /** No driver's seat count is negative. */
  predicate SeatsNonNegative(drivers: seq<RideMatcher.Driver>) {
    forall j :: 0 <= j < |drivers| ==> drivers[j].seats >= 0
  }

  /** A seat lock run on its own never drives a count below zero; app.py takes no lock, so overlapping calls are not covered. */
  lemma ConfirmRideKeepsSeatsNonNegative(st: State, driverId: Value, seatsBooked: int)
    requires SeatsNonNegative(st.drivers)
    ensures SeatsNonNegative(ConfirmRide(st, driverId, seatsBooked).0.drivers)
  {
    var st' := ConfirmRide(st, driverId, seatsBooked).0;
    if st' != st {
      var i := RideMatcher.FirstWithId(st.drivers, driverId).value;
      forall j | 0 <= j < |st'.drivers|
        ensures st'.drivers[j].seats >= 0
      {
        if j != i {
          assert st'.drivers[j] == st.drivers[j];
        }
      }
    }
  }

  // ---------------------------------------------------------------- successive bookings

  /** Successive confirm_ride calls for one driver id, one per booking, in order. */
  function ConfirmAll(st: State, driverId: Value, bookings: seq<int>): (r: (State, seq<Option<bool>>))
    ensures |r.1| == |bookings|
    ensures |r.0.drivers| == |st.drivers|
    decreases |bookings|
  {
    if |bookings| == 0 then (st, [])
    else
      var (st1, first) := ConfirmRide(st, driverId, bookings[0]);
      var (st2, rest) := ConfirmAll(st1, driverId, bookings[1..]);
      (st2, [first] + rest)
  }

  /** The seats taken by the bookings that succeeded. */
  function Accepted(bookings: seq<int>, results: seq<Option<bool>>): int
    requires |results| == |bookings|
  {
    if |bookings| == 0 then 0
    else (if results[0] == Some(true) then bookings[0] else 0) + Accepted(bookings[1..], results[1..])
  }

  /** Locking seats never changes which driver an id resolves to. */
  lemma FirstWithIdAfterConfirm(st: State, driverId: Value, seatsBooked: int)
    ensures RideMatcher.FirstWithId(ConfirmRide(st, driverId, seatsBooked).0.drivers, driverId)
         == RideMatcher.FirstWithId(st.drivers, driverId)
  {
    var (st', ok) := ConfirmRide(st, driverId, seatsBooked);
    if ok == Some(true) {
      var i := RideMatcher.FirstWithId(st.drivers, driverId).value;
      forall j | 0 <= j < |st.drivers|
        ensures st'.drivers[j].id == st.drivers[j].id
      {
        if j == i {
          assert st'.drivers[i] == st.drivers[i].(seats := st.drivers[i].seats - seatsBooked);
        }
      }
      RideMatcher.FirstWithIdSameIds(st'.drivers, st.drivers, driverId);
    }
  }

  /**
   Over any sequence of bookings against one driver, run one after another, the seats taken are exactly the sum of the
   successful bookings, the count never goes below zero if it started at zero or more, and with
   positive bookings every refused booking was larger than what is left at the end.
   */
  lemma {:induction false} BookingsConserveSeats(st: State, driverId: Value, bookings: seq<int>)
    requires RideMatcher.FirstWithId(st.drivers, driverId).Some?
    ensures var i := RideMatcher.FirstWithId(st.drivers, driverId).value;
      var (st', results) := ConfirmAll(st, driverId, bookings);
      && RideMatcher.FirstWithId(st'.drivers, driverId) == Some(i)
      && st'.drivers[i].seats == st.drivers[i].seats - Accepted(bookings, results)
      && (st.drivers[i].seats >= 0 ==> st'.drivers[i].seats >= 0)
      && ((forall j :: 0 <= j < |bookings| ==> bookings[j] > 0) ==>
            && st'.drivers[i].seats <= st.drivers[i].seats
            && forall j :: 0 <= j < |bookings| && results[j] == Some(false) ==> bookings[j] > st'.drivers[i].seats)
    decreases |bookings|
  {
    var i := RideMatcher.FirstWithId(st.drivers, driverId).value;
    if |bookings| > 0 {
      var (st1, first) := ConfirmRide(st, driverId, bookings[0]);
      FirstWithIdAfterConfirm(st, driverId, bookings[0]);
      BookingsConserveSeats(st1, driverId, bookings[1..]);
      var (st', results) := ConfirmAll(st, driverId, bookings);
      assert results[1..] == ConfirmAll(st1, driverId, bookings[1..]).1;
      assert st' == ConfirmAll(st1, driverId, bookings[1..]).0;
      assert st1.drivers[i].seats == st.drivers[i].seats - (if first == Some(true) then bookings[0] else 0);
      if forall j :: 0 <= j < |bookings| ==> bookings[j] > 0 {
        assert forall j :: 0 <= j < |bookings| - 1 ==> bookings[1..][j] > 0;
        forall j | 0 <= j < |bookings| && results[j] == Some(false)
          ensures bookings[j] > st'.drivers[i].seats
        {
          if j == 0 {
            assert st1.drivers[i].seats < bookings[0];
          } else {
            assert results[1..][j - 1] == Some(false);
          }
        }
      }
    }
  }

  // ---------------------------------------------------------------- routes over the seat lock

  const Locked := "locked"
  const Failed := "failed"

  /** /lock_seats: `int(data.get("seats", 1))` may raise; otherwise "locked" exactly when confirm_ride returned True. */
  function LockSeats(st: State, data: Record): (r: Result<(State, string)>)
    ensures r.Raised? <==> ToInt(Get(data, "seats", IntV(1))).Raised?
    ensures r.Ok? ==>
      var seats := ToInt(Get(data, "seats", IntV(1))).value;
      var (st', success) := ConfirmRide(st, Get(data, "driver_id", NoneV), seats);
      && r.value.0 == st'
      && (r.value.1 == Locked <==> success == Some(true))
      && (r.value.1 == Failed <==> success != Some(true))
  {
    match ToInt(Get(data, "seats", IntV(1)))
    case Raised(e) => Raised(e)
    case Ok(seats) =>
      var (st', success) := ConfirmRide(st, Get(data, "driver_id", NoneV), seats);
      Ok((st', if success == Some(true) then Locked else Failed))
  }

  /** JOB_STATUS: job id to "processing", "completed" or "failed". */
  type JobTable = map<string, string>

  /** The work the background thread of /confirm_ride will do. */
  datatype PendingJob = PendingJob(jobId: string, driverId: Value, seats: int)

  const Processing := "processing"
  const Completed := "completed"
  const Unknown := "unknown"

  /** /confirm_ride, request half: convert the seat count, then record the job as processing. */
  function SubmitConfirmJob(jobs: JobTable, data: Record, jobId: string): (r: Result<(JobTable, PendingJob)>)
    ensures r.Raised? <==> ToInt(Get(data, "seats", IntV(1))).Raised?
    ensures r.Ok? ==> r.value.0 == jobs[jobId := Processing]
    ensures r.Ok? ==> r.value.1 == PendingJob(jobId, Get(data, "driver_id", NoneV), ToInt(Get(data, "seats", IntV(1))).value)
  {
    match ToInt(Get(data, "seats", IntV(1)))
    case Raised(e) => Raised(e)
    case Ok(seats) => Ok((jobs[jobId := Processing], PendingJob(jobId, Get(data, "driver_id", NoneV), seats)))
  }

  /** /confirm_ride, thread half: run confirm_ride and record "completed" on True, "failed" otherwise. */
  function RunConfirmJob(st: State, jobs: JobTable, job: PendingJob): (r: (State, JobTable))
    ensures r.0 == ConfirmRide(st, job.driverId, job.seats).0
    ensures job.jobId in r.1
    ensures r.1[job.jobId] == Completed <==> ConfirmRide(st, job.driverId, job.seats).1 == Some(true)
    ensures r.1[job.jobId] == Failed <==> ConfirmRide(st, job.driverId, job.seats).1 != Some(true)
    ensures forall id :: id != job.jobId ==> (id in r.1 <==> id in jobs) && (id in jobs ==> r.1[id] == jobs[id])
  {
    var (st', success) := ConfirmRide(st, job.driverId, job.seats);
    (st', jobs[job.jobId := if success == Some(true) then Completed else Failed])
  }

  /** /job_status/<job_id>. */
  function JobStatus(jobs: JobTable, jobId: string): (status: string)
    ensures jobId !in jobs ==> status == Unknown
    ensures jobId in jobs ==> status == jobs[jobId]
  {
    if jobId in jobs then jobs[jobId] else Unknown
  }

  /** A submitted job reads "processing" until its thread runs, then "completed" or "failed" by the lock's outcome. */
  lemma ConfirmJobLifecycle(st: State, jobs: JobTable, data: Record, jobId: string)
    requires SubmitConfirmJob(jobs, data, jobId).Ok?
    ensures var (jobs1, job) := SubmitConfirmJob(jobs, data, jobId).value;
      && JobStatus(jobs1, jobId) == Processing
      && (JobStatus(RunConfirmJob(st, jobs1, job).1, jobId) == Completed
          <==> LockSeats(st, data) == Ok((RunConfirmJob(st, jobs1, job).0, Locked)))
  {
  }

  // ---------------------------------------------------------------- search route

  /** The second record /search_rides logs, through memory_store.save_ride_request. */
  function RouteLogRecord(data: Record, millis: nat, seconds: int): Record {
    map["id" := StrV("req_" + Decimal(millis)), "user_name" := Get(data, "user_name", NoneV),
        "from_city" := Get(data, "from", NoneV), "to_city" := Get(data, "to", NoneV),
        "seats" := Get(data, "seats", NoneV), "timestamp" := IntV(seconds)]
  }

  /** /search_rides: find_matches (which logs once), then a second log record. */
  function SearchRides(st: State, data: Record, millis1: nat, seconds1: int, millis2: nat, seconds2: int): (r: Result<(State, seq<Record>)>)
    ensures r.Raised? <==> RideMatcher.FindMatches(st, data, millis1, seconds1).Raised?
    ensures r.Ok? ==>
      var (st', rides) := r.value;
      var log, log' := MemoryStore.ReadAll(st.requestsFile), MemoryStore.ReadAll(st'.requestsFile);
      && rides == RideMatcher.FindMatches(st, data, millis1, seconds1).value.1
      && st'.drivers == st.drivers && st'.driversFile == st.driversFile
      && |log'| == |log| + 2 && log'[..|log|] == log
      && log'[|log|] == RideMatcher.SearchLogRecord(Get(data, "from", NoneV), Get(data, "to", NoneV),
                                                    ToInt(Get(data, "seats", IntV(1))).value, millis1, seconds1)
      && log'[|log| + 1] == RouteLogRecord(data, millis2, seconds2)
  {
    match RideMatcher.FindMatches(st, data, millis1, seconds1)
    case Raised(e) => Raised(e)
    case Ok((st1, rides)) =>
      var written := MemoryStore.SaveRideRequest(st1.requestsFile, RouteLogRecord(data, millis2, seconds2));
      Ok((st1.(requestsFile := Some(written)), rides))
  }

  // ---------------------------------------------------------------- start-up

  /** Importing ride_matcher rehydrates drivers.json; app.py then seeds five demo drivers. */
  function Startup(driversFile: MemoryStore.File, requestsFile: MemoryStore.File, clock: nat -> int): (r: Result<State>)
    ensures r.Ok? <==> RideMatcher.LoadDrivers(driversFile).Ok?
    ensures r.Ok? ==> r.value.driversFile == driversFile && r.value.requestsFile == requestsFile
    ensures r.Ok? ==> |r.value.drivers| == |RideMatcher.LoadDrivers(driversFile).value| + 5
    ensures r.Ok? ==>
      var loaded, ds := RideMatcher.LoadDrivers(driversFile).value, r.value.drivers;
      && ds[..|loaded|] == loaded
      && forall k :: |loaded| <= k < |ds| ==>
        && ds[k].id == StrV("Driver" + Decimal(k - |loaded| + 1)) && ds[k].seats == 4
        && ds[k].fromCity == StrV("Delhi") && ds[k].toCity == StrV("Mumbai")
  {
    match RideMatcher.LoadDrivers(driversFile)
    case Raised(e) => Raised(e)
    case Ok(loaded) => Ok(RideMatcher.State(RideMatcher.SeedDemoDrivers(loaded, 5, clock), driversFile, requestsFile))
  }

  /**
   A restart brings back every saved driver, in order, followed by five fresh demo drivers;
   demo drivers that were saved come back next to new ones with the same ids.
   */
  lemma RestartRestoresSavedDrivers(saved: seq<RideMatcher.Driver>, requestsFile: MemoryStore.File, clock: nat -> int)
    ensures var r := Startup(Some(RideMatcher.Snapshot(saved)), requestsFile, clock);
      && r.Ok?
      && r.value.drivers[..|saved|] == saved
      && |r.value.drivers| == |saved| + 5
      && (|saved| > 0 && saved[0].id == StrV("Driver1") ==> r.value.drivers[|saved|].id == saved[0].id)
  {
    RideMatcher.PersistThenLoad(saved);
    assert Decimal(1) == "1";
  }
}

=== FILE: long_runner.dfy ===
/**
 The pausable long-running job simulator (tools/long_runner.py).

 Each job has a status, a result and an asyncio event that gates its timer
 loop. The loop itself is not modelled: its one observable effect, marking the
 job completed with its result once the timer expires, is the external event
 `Complete`.
 */
module LongRunner {
  import opened PyValues

  datatype Status = Running | Paused | Completed

  /** {"message": "driver_confirmed", "request_id": ...}. */
  datatype JobResult = JobResult(message: string, requestId: string)

  /** A JOBS entry; `released` is whether its pause_event is set. */
  datatype Job = Job(status: Status, result: Option<JobResult>, released: bool)

  type Jobs = map<string, Job>

  /** The dictionaries the job functions return. */
  datatype Reply =
    | Started(jobId: string)
    | PausedJob(jobId: string)
    | ResumedJob(jobId: string)
    | Report(jobId: string, status: Status, result: Option<JobResult>)
    | Error(message: string)

  const DriverConfirmed := "driver_confirmed"
  const NotRunning := "not found or not running"
  const NotPaused := "not found or not paused"
  const NotFound := "not found"

  /** The gate agrees with the status: a running job's event is set and a paused job's is cleared. */
  ghost predicate GateConsistent(jobs: Jobs) {
    forall id :: id in jobs ==>
      (jobs[id].status == Running ==> jobs[id].released) &&
      (jobs[id].status == Paused ==> !jobs[id].released)
  }

  /** Every entry other than `id` is the same in both tables. */
  ghost predicate OthersUnchanged(jobs: Jobs, jobs': Jobs, id: string) {
    forall k :: k != id ==> (k in jobs' <==> k in jobs) && (k in jobs ==> jobs'[k] == jobs[k])
  }

  /** start_long_job: a fresh id (a uuid, supplied here) gets a running job with no result. */
  function StartLongJob(jobs: Jobs, jobId: string): (r: (Jobs, Reply))
    ensures jobId in r.0 && r.0[jobId].status == Running && r.0[jobId].result == None && r.0[jobId].released
    ensures OthersUnchanged(jobs, r.0, jobId)
    ensures r.1 == Started(jobId)
  {
    (jobs[jobId := Job(Running, None, true)], Started(jobId))
  }

  /** pause_job: only a running job pauses, clearing its event; anything else is an error with no change. */
  function PauseJob(jobs: Jobs, jobId: string): (r: (Jobs, Reply))
    ensures !(jobId in jobs && jobs[jobId].status == Running) ==> r == (jobs, Error(NotRunning))
    ensures jobId in jobs && jobs[jobId].status == Running ==>
      && r.0 == jobs[jobId := jobs[jobId].(status := Paused, released := false)]
      && r.1 == PausedJob(jobId)
    ensures OthersUnchanged(jobs, r.0, jobId)
  {
    if jobId in jobs && jobs[jobId].status == Running then
      (jobs[jobId := jobs[jobId].(status := Paused, released := false)], PausedJob(jobId))
    else (jobs, Error(NotRunning))
  }

  /** resume_job: only a paused job resumes, setting its event; anything else is an error with no change. */
  function ResumeJob(jobs: Jobs, jobId: string): (r: (Jobs, Reply))
    ensures !(jobId in jobs && jobs[jobId].status == Paused) ==> r == (jobs, Error(NotPaused))
    ensures jobId in jobs && jobs[jobId].status == Paused ==>
      && r.0 == jobs[jobId := jobs[jobId].(status := Running, released := true)]
      && r.1 == ResumedJob(jobId)
    ensures OthersUnchanged(jobs, r.0, jobId)
  {
    if jobId in jobs && jobs[jobId].status == Paused then
      (jobs[jobId := jobs[jobId].(status := Running, released := true)], ResumedJob(jobId))
    else (jobs, Error(NotPaused))
  }

  /**
   The end of _simulate_wait: once the timer has expired the job is marked completed with
   its result, whatever its status. A pause that lands during the last sleep does not stop
   this, so a paused job can complete too.
   */
  function Complete(jobs: Jobs, jobId: string): (r: Jobs)
    ensures jobId in jobs ==>
      && jobId in r && r[jobId].status == Completed
      && r[jobId].result == Some(JobResult(DriverConfirmed, jobId))
      && r[jobId].released == jobs[jobId].released
    ensures jobId !in jobs ==> r == jobs
    ensures OthersUnchanged(jobs, r, jobId)
  {
    if jobId in jobs then jobs[jobId := jobs[jobId].(status := Completed, result := Some(JobResult(DriverConfirmed, jobId)))]
    else jobs
  }

  /** job_status. */
  function JobStatus(jobs: Jobs, jobId: string): (r: Reply)
    ensures jobId !in jobs <==> r == Error(NotFound)
    ensures jobId in jobs ==> r == Report(jobId, jobs[jobId].status, jobs[jobId].result)
  {
    if jobId in jobs then Report(jobId, jobs[jobId].status, jobs[jobId].result) else Error(NotFound)
  }

  /** Every operation keeps each job's event consistent with its status. */
  lemma OperationsKeepGateConsistent(jobs: Jobs, jobId: string)
    requires GateConsistent(jobs)
    ensures GateConsistent(StartLongJob(jobs, jobId).0)
    ensures GateConsistent(PauseJob(jobs, jobId).0)
    ensures GateConsistent(ResumeJob(jobs, jobId).0)
    ensures GateConsistent(Complete(jobs, jobId))
  {
  }

  /** Pausing a running job and then resuming it restores the table exactly. */
  lemma PauseThenResume(jobs: Jobs, jobId: string)
    requires GateConsistent(jobs)
    requires jobId in jobs && jobs[jobId].status == Running
    ensures ResumeJob(PauseJob(jobs, jobId).0, jobId) == (jobs, ResumedJob(jobId))
  {
    var paused := PauseJob(jobs, jobId).0;
    assert paused[jobId := paused[jobId].(status := Running, released := true)] == jobs;
  }

  /** A completed job can be neither paused nor resumed, and reports its confirmation result. */
  lemma CompletedJobIsFinal(jobs: Jobs, jobId: string)
    requires jobId in jobs
    ensures var done := Complete(jobs, jobId);
      && PauseJob(done, jobId) == (done, Error(NotRunning))
      && ResumeJob(done, jobId) == (done, Error(NotPaused))
      && JobStatus(done, jobId) == Report(jobId, Completed, Some(JobResult(DriverConfirmed, jobId)))
  {
  }
}

=== FILE: matching.dfy ===
/**
 The geospatial driver registry and its matcher (tools/matching.py).

 The registry is an ordered list of driver records. Registration appends, and
 location updates and removals act on the FIRST record carrying the requested
 id. A query keeps the drivers with enough seats, a start time within an hour
 of the requested time and a pickup distance within the radius, reports each
 with its distance rounded for display, orders them stably by that reported
 distance and keeps the first `top_n`.

 The great-circle distance and the rounding to two decimals are floating-point
 computations; both are parameters here, so every property below holds for
 whatever distance and rounding functions are supplied.
 */
module Matching {
  import opened PyValues

  /** One stored driver offer; `vehicle` is passed through unchecked. */
  datatype Driver = Driver(driverId: string, lat: real, lon: real, startTime: real, seats: int, vehicle: Value)

  type Store = seq<Driver>

  /** The dictionaries returned by the registry operations. */
  datatype Reply =
    | Registered(driverId: string)
    | Updated(driverId: string)
    | Removed(driverId: string)
    | Error(message: string)

  const NotNumbers := "lat/lon must be numbers"
  const NotPositiveSeats := "seats must be a positive integer"
  const IdNotString := "driver_id must be a string"
  const DriverNotFound := "driver not found"
  const NoSuitableDrivers := "no suitable drivers found"

  /** Half-width, in seconds, of the departure-time window around the requested time. */
  const TimeWindow: real := 3600.0
  const DefaultMaxDistanceKm: real := 5.0
  const DefaultTopN: int := 5

  /** haversine(lat1, lon1, lat2, lon2) in kilometres. */
  type Distance = (real, real, real, real) -> real
  /** round(x, 2). */
  type Rounding = real -> real

  // ---------------------------------------------------------------- registration

  /** `isinstance(seats, int) and not seats <= 0`. */
  predicate PositiveInt(v: Value) {
    IsInt(v) && NumericValue(v) > 0.0
  }

  /** register_driver: validate, then append one record. */
  function Register(store: Store, lat: Value, lon: Value, startTime: real, seats: Value, vehicle: Value, driverId: Value): (r: (Store, Reply))
    ensures !(IsNumber(lat) && IsNumber(lon)) ==> r == (store, Error(NotNumbers))
    ensures IsNumber(lat) && IsNumber(lon) && !PositiveInt(seats) ==> r == (store, Error(NotPositiveSeats))
    ensures IsNumber(lat) && IsNumber(lon) && PositiveInt(seats) && !driverId.StrV? ==> r == (store, Error(IdNotString))
    ensures r.1.Registered? <==> IsNumber(lat) && IsNumber(lon) && PositiveInt(seats) && driverId.StrV?
    ensures r.1.Registered? ==>
      && |r.0| == |store| + 1
      && r.0[..|store|] == store
      && r.0[|store|] == Driver(driverId.s, NumericValue(lat), NumericValue(lon), startTime, NumericValue(seats).Floor, vehicle)
      && r.1.driverId == driverId.s
  {
    if !(IsNumber(lat) && IsNumber(lon)) then (store, Error(NotNumbers))
    else if !PositiveInt(seats) then (store, Error(NotPositiveSeats))
    else if !driverId.StrV? then (store, Error(IdNotString))
    else
      var d := Driver(driverId.s, NumericValue(lat), NumericValue(lon), startTime, NumericValue(seats).Floor, vehicle);
      (store + [d], Registered(driverId.s))
  }

  /** An id already in the registry is accepted again, leaving two records with that id. */
  lemma RegisterAcceptsDuplicateId(store: Store, i: nat, lat: Value, lon: Value, startTime: real, seats: Value, vehicle: Value)
    requires i < |store|
    requires IsNumber(lat) && IsNumber(lon) && PositiveInt(seats)
    ensures var r := Register(store, lat, lon, startTime, seats, vehicle, StrV(store[i].driverId));
      && r.1 == Registered(store[i].driverId)
      && r.0[i].driverId == r.0[|store|].driverId
      && i != |store|
  {
    var r := Register(store, lat, lon, startTime, seats, vehicle, StrV(store[i].driverId));
    assert r.0[i] == r.0[..|store|][i];
  }

  // ---------------------------------------------------------------- lookup

  /** The position the `for driver in _drivers` scans stop at: the first record with the id. */
  function FirstIndex(store: Store, id: string): (r: Option<nat>)
    ensures r.Some? ==> r.value < |store| && store[r.value].driverId == id
    ensures r.Some? ==> forall j :: 0 <= j < r.value ==> store[j].driverId != id
    ensures r.None? <==> forall j :: 0 <= j < |store| ==> store[j].driverId != id
  {
    if |store| == 0 then None
    else if store[0].driverId == id then Some(0)
    else match FirstIndex(store[1..], id)
      case None => None
      case Some(k) => Some(k + 1)
  }

  // ---------------------------------------------------------------- update and removal

  /** update_driver_location: move the first driver with the id. */
  function UpdateLocation(store: Store, id: string, newLat: Value, newLon: Value): (r: (Store, Reply))
    ensures !(IsNumber(newLat) && IsNumber(newLon)) ==> r == (store, Error(NotNumbers))
    ensures IsNumber(newLat) && IsNumber(newLon) && FirstIndex(store, id).None? ==> r == (store, Error(DriverNotFound))
    ensures r.1.Updated? <==> IsNumber(newLat) && IsNumber(newLon) && FirstIndex(store, id).Some?
    ensures r.1.Updated? ==>
      var i := FirstIndex(store, id).value;
      && r.1.driverId == id
      && |r.0| == |store|
      && r.0[i] == store[i].(lat := NumericValue(newLat), lon := NumericValue(newLon))
      && forall j :: 0 <= j < |store| && j != i ==> r.0[j] == store[j]
  {
    if !(IsNumber(newLat) && IsNumber(newLon)) then (store, Error(NotNumbers))
    else match FirstIndex(store, id)
      case None => (store, Error(DriverNotFound))
      case Some(i) =>
        (store[i := store[i].(lat := NumericValue(newLat), lon := NumericValue(newLon))], Updated(id))
  }

  /** remove_driver: delete the first driver with the id. */
  function Remove(store: Store, id: string): (r: (Store, Reply))
    ensures FirstIndex(store, id).None? ==> r == (store, Error(DriverNotFound))
    ensures r.1.Removed? <==> exists j :: 0 <= j < |store| && store[j].driverId == id
    ensures r.1.Removed? ==>
      var i := FirstIndex(store, id).value;
      && r.1.driverId == id
      && |r.0| == |store| - 1
      && r.0[..i] == store[..i]
      && r.0[i..] == store[i + 1..]
  {
    match FirstIndex(store, id)
    case None => (store, Error(DriverNotFound))
    case Some(i) => (store[..i] + store[i + 1..], Removed(id))
  }

  /** Removal of a registered id takes out one record and only one: the count of that id drops by one. */
  lemma RemoveDropsOneRecord(store: Store, id: string)
    requires exists j :: 0 <= j < |store| && store[j].driverId == id
    ensures CountId(Remove(store, id).0, id) == CountId(store, id) - 1
  {
    var i := FirstIndex(store, id).value;
    assert store == store[..i] + [store[i]] + store[i + 1..];
    CountIdAppend(store[..i] + [store[i]], store[i + 1..], id);
    CountIdAppend(store[..i], [store[i]], id);
    CountIdAppend(store[..i], store[i + 1..], id);
  }

  /** The number of records carrying an id. */
  function CountId(store: Store, id: string): nat {
    if |store| == 0 then 0
    else (if store[|store| - 1].driverId == id then 1 else 0) + CountId(store[..|store| - 1], id)
  }

  lemma {:induction false} CountIdAppend(a: Store, b: Store, id: string)
    ensures CountId(a + b, id) == CountId(a, id) + CountId(b, id)
    decreases |b|
  {
    if |b| == 0 {
      assert a + b == a;
    } else {
      assert (a + b)[..|a + b| - 1] == a + b[..|b| - 1];
      CountIdAppend(a, b[..|b| - 1], id);
    }
  }

  // ---------------------------------------------------------------- matching

  /** The arguments of find_matches; `DefaultQuery` supplies the two defaults. */
  datatype Query = Query(lat: real, lon: real, destLat: real, destLon: real, time: real,
                         seatsNeeded: int, maxDistanceKm: real, topN: int)

  function DefaultQuery(lat: real, lon: real, destLat: real, destLon: real, time: real, seatsNeeded: int): (q: Query)
    ensures q.maxDistanceKm == 5.0 && q.topN == 5
    ensures q.lat == lat && q.lon == lon && q.time == time && q.seatsNeeded == seatsNeeded
  {
    Query(lat, lon, destLat, destLon, time, seatsNeeded, DefaultMaxDistanceKm, DefaultTopN)
  }

  /** One reported candidate. */
  datatype Entry = Entry(driverId: string, vehicle: Value, pickupLat: real, pickupLon: real,
                         time: real, seatsAvailable: int, distanceKm: real)

  datatype MatchResult = Matched(drivers: seq<Entry>) | NoMatch(reason: string)

  function Abs(x: real): real {
    if x < 0.0 then -x else x
  }

  /** The three filters; the distance compared is the unrounded one. */
  predicate Eligible(d: Driver, q: Query, dist: Distance) {
    && d.seats >= q.seatsNeeded
    && Abs(d.startTime - q.time) <= TimeWindow
    && dist(q.lat, q.lon, d.lat, d.lon) <= q.maxDistanceKm
  }

  /** The dictionary reported for an eligible driver; only its distance is rounded. */
  function ToEntry(d: Driver, q: Query, dist: Distance, round: Rounding): Entry {
    Entry(d.driverId, d.vehicle, d.lat, d.lon, d.startTime, d.seats, round(dist(q.lat, q.lon, d.lat, d.lon)))
  }

  /** The `matches` list before sorting: eligible drivers in store order. */
  function Candidates(store: Store, q: Query, dist: Distance, round: Rounding): (c: seq<Entry>)
    ensures |c| <= |store|
    ensures forall e :: e in c ==> exists i :: 0 <= i < |store| && Eligible(store[i], q, dist) && e == ToEntry(store[i], q, dist, round)
    ensures forall i :: 0 <= i < |store| && Eligible(store[i], q, dist) ==> ToEntry(store[i], q, dist, round) in c
  {
    if |store| == 0 then []
    else
      var rest := Candidates(store[..|store| - 1], q, dist, round);
      var d := store[|store| - 1];
      assert forall i :: 0 <= i < |store| - 1 ==> store[..|store| - 1][i] == store[i];
      if Eligible(d, q, dist) then rest + [ToEntry(d, q, dist, round)] else rest
  }

  /** Scanning a longer store scans its prefix first: the candidate list grows only at the end. */
  lemma {:induction false} CandidatesAppend(a: Store, b: Store, q: Query, dist: Distance, round: Rounding)
    ensures Candidates(a + b, q, dist, round) == Candidates(a, q, dist, round) + Candidates(b, q, dist, round)
    decreases |b|
  {
    if |b| == 0 {
      assert a + b == a;
    } else {
      assert (a + b)[..|a + b| - 1] == a + b[..|b| - 1];
      assert (a + b)[|a + b| - 1] == b[|b| - 1];
      CandidatesAppend(a, b[..|b| - 1], q, dist, round);
    }
  }

  /** A single driver contributes its entry exactly when it passes every filter. */
  lemma CandidatesSingle(d: Driver, q: Query, dist: Distance, round: Rounding)
    ensures Candidates([d], q, dist, round) == if Eligible(d, q, dist) then [ToEntry(d, q, dist, round)] else []
  {
    assert [d][..0] == [];
  }

  // ---------------------------------------------------------------- stable ranking

  /** Non-decreasing by reported distance. */
  predicate Sorted(s: seq<Entry>) {
    forall i, j :: 0 <= i < j < |s| ==> s[i].distanceKm <= s[j].distanceKm
  }

  /** The entries reporting distance `k`, in order. */
  function AtDistance(s: seq<Entry>, k: real): seq<Entry> {
    if |s| == 0 then []
    else (if s[0].distanceKm == k then [s[0]] else []) + AtDistance(s[1..], k)
  }

  /** Insert ahead of the first entry that is at least as far, so that ties keep their input order. */
  function Insert(e: Entry, s: seq<Entry>): (r: seq<Entry>)
    requires Sorted(s)
    ensures Sorted(r)
    ensures multiset(r) == multiset{e} + multiset(s)
    ensures |r| == |s| + 1
    ensures r[0] == e || (|s| > 0 && r[0] == s[0])
  {
    if |s| == 0 || e.distanceKm <= s[0].distanceKm then [e] + s
    else
      assert s == [s[0]] + s[1..];
      [s[0]] + Insert(e, s[1..])
  }

  /** `matches.sort(key=lambda x: x["distance_km"])`: an insertion sort, stable like Python's. */
  function SortByDistance(s: seq<Entry>): (r: seq<Entry>)
    ensures Sorted(r)
    ensures multiset(r) == multiset(s)
    ensures |r| == |s|
  {
    if |s| == 0 then []
    else
      assert s == [s[0]] + s[1..];
      Insert(s[0], SortByDistance(s[1..]))
  }

  lemma {:induction false} AtDistanceAppend(a: seq<Entry>, b: seq<Entry>, k: real)
    ensures AtDistance(a + b, k) == AtDistance(a, k) + AtDistance(b, k)
    decreases |a|
  {
    if |a| == 0 {
      assert a + b == b;
    } else {
      var ab := a + b;
      assert ab[0] == a[0] && ab[1..] == a[1..] + b;
      AtDistanceAppend(a[1..], b, k);
      var head := if a[0].distanceKm == k then [a[0]] else [];
      assert AtDistance(ab, k) == head + AtDistance(a[1..] + b, k);
      assert AtDistance(a, k) == head + AtDistance(a[1..], k);
    }
  }

  /** No entry reports distance `k` when every entry is farther than `k`. */
  lemma {:induction false} AtDistanceFar(s: seq<Entry>, k: real)
    requires forall j :: 0 <= j < |s| ==> s[j].distanceKm > k
    ensures AtDistance(s, k) == []
    decreases |s|
  {
    if |s| > 0 {
      AtDistanceFar(s[1..], k);
    }
  }

  /** A sorted list's prefix holds all its entries at any distance below the prefix's last one. */
  lemma SortedPrefixAtDistance(s: seq<Entry>, n: nat, k: real)
    requires Sorted(s) && 0 < n <= |s| && k < s[n - 1].distanceKm
    ensures AtDistance(s[..n], k) == AtDistance(s, k)
  {
    var rest := s[n..];
    assert s == s[..n] + rest;
    forall j | 0 <= j < |rest|
      ensures rest[j].distanceKm > k
    {
      assert rest[j] == s[n + j];
    }
    AtDistanceFar(rest, k);
    AtDistanceAppend(s[..n], rest, k);
  }

  lemma SortedTail(s: seq<Entry>)
    requires Sorted(s) && |s| > 0
    ensures Sorted(s[1..])
  {
    forall i, j | 0 <= i < j < |s| - 1
      ensures s[1..][i].distanceKm <= s[1..][j].distanceKm
    {
      assert s[1..][i] == s[i + 1] && s[1..][j] == s[j + 1];
    }
  }

  /** Inserting puts the new entry ahead of the ties already present. */
  lemma {:induction false} InsertAtDistance(e: Entry, s: seq<Entry>, k: real)
    requires Sorted(s)
    ensures AtDistance(Insert(e, s), k) == (if e.distanceKm == k then [e] else []) + AtDistance(s, k)
    decreases |s|
  {
    if |s| == 0 || e.distanceKm <= s[0].distanceKm {
      assert ([e] + s)[1..] == s;
    } else {
      SortedTail(s);
      var r := Insert(e, s[1..]);
      assert Insert(e, s) == [s[0]] + r;
      assert ([s[0]] + r)[1..] == r;
      InsertAtDistance(e, s[1..], k);
      var hs := if s[0].distanceKm == k then [s[0]] else [];
      assert AtDistance([s[0]] + r, k) == hs + AtDistance(r, k);
      assert AtDistance(s, k) == hs + AtDistance(s[1..], k);
      if e.distanceKm == k {
        assert hs == [];
      }
    }
  }

  /** Stability: for every distance, the entries at that distance keep their input order. */
  lemma {:induction false} SortIsStable(s: seq<Entry>, k: real)
    ensures AtDistance(SortByDistance(s), k) == AtDistance(s, k)
    decreases |s|
  {
    if |s| > 0 {
      SortIsStable(s[1..], k);
      InsertAtDistance(s[0], SortByDistance(s[1..]), k);
    }
  }

  // ---------------------------------------------------------------- the query

  /** find_matches: filter, rank by reported distance, keep `matches[:top_n]`. */
  function FindMatches(store: Store, q: Query, dist: Distance, round: Rounding): (r: MatchResult)
    ensures r.NoMatch? <==> forall i :: 0 <= i < |store| ==> !Eligible(store[i], q, dist)
    ensures r.NoMatch? ==> r.reason == NoSuitableDrivers
    ensures r.Matched? ==> Sorted(r.drivers)
    ensures r.Matched? ==> var n := |Candidates(store, q, dist, round)|;
      |r.drivers| == if q.topN >= 0 then (if q.topN < n then q.topN else n)
                     else (if n + q.topN > 0 then n + q.topN else 0)
  {
    var c := Candidates(store, q, dist, round);
    if |c| == 0 then NoMatch(NoSuitableDrivers)
    else
      assert c[0] in c;
      Matched(SliceTo(SortByDistance(c), q.topN))
  }

  /** Every reported driver passed all three filters and is reported with its rounded distance. */
  lemma FindMatchesSound(store: Store, q: Query, dist: Distance, round: Rounding, e: Entry)
    requires FindMatches(store, q, dist, round).Matched?
    requires e in FindMatches(store, q, dist, round).drivers
    ensures e.seatsAvailable >= q.seatsNeeded
    ensures Abs(e.time - q.time) <= TimeWindow
    ensures exists i :: (0 <= i < |store| && e == ToEntry(store[i], q, dist, round)
      && dist(q.lat, q.lon, store[i].lat, store[i].lon) <= q.maxDistanceKm)
  {
    var c := Candidates(store, q, dist, round);
    var s := SortByDistance(c);
    var r := SliceTo(s, q.topN);
    assert FindMatches(store, q, dist, round).drivers == r;
    assert e in s by {
      var j :| 0 <= j < |r| && r[j] == e;
      assert s[j] == e;
    }
    assert e in multiset(c);
    assert e in c;
    var i :| 0 <= i < |store| && Eligible(store[i], q, dist) && e == ToEntry(store[i], q, dist, round);
    assert store[i].driverId == e.driverId && store[i].seats == e.seatsAvailable;
  }

  /**
   Truncation drops only the far end: no candidate nearer than a reported one is left
   out, and among equally distant candidates the reported ones are the earliest in the
   store, in store order. Below the farthest reported distance every candidate is
   reported, as many times as it occurs.
   */
  lemma FindMatchesKeepsNearestFirst(store: Store, q: Query, dist: Distance, round: Rounding)
    requires FindMatches(store, q, dist, round).Matched?
    ensures var c, r := Candidates(store, q, dist, round), FindMatches(store, q, dist, round).drivers;
      && (forall i, e :: 0 <= i < |r| && e in c && e.distanceKm < r[i].distanceKm ==> e in r)
      && (forall k :: AtDistance(r, k) <= AtDistance(c, k))
      && (forall k :: |r| > 0 && k < r[|r| - 1].distanceKm ==> AtDistance(r, k) == AtDistance(c, k))
  {
    var c, r := Candidates(store, q, dist, round), FindMatches(store, q, dist, round).drivers;
    var s := SortByDistance(c);
    assert r == s[..|r|];
    SortedPrefixNearest(c, s, |r|);
    forall k
      ensures AtDistance(r, k) <= AtDistance(c, k)
    {
      PrefixAtDistance(s, |r|, k);
      SortIsStable(c, k);
    }
    forall k | |r| > 0 && k < r[|r| - 1].distanceKm
      ensures AtDistance(r, k) == AtDistance(c, k)
    {
      SortedPrefixAtDistance(s, |r|, k);
      SortIsStable(c, k);
    }
  }

  /** A prefix of a sorted arrangement of `c` holds every element of `c` nearer than one of its own. */
  lemma SortedPrefixNearest(c: seq<Entry>, s: seq<Entry>, n: nat)
    requires Sorted(s) && multiset(s) == multiset(c) && n <= |s|
    ensures forall i, e :: 0 <= i < n && e in c && e.distanceKm < s[..n][i].distanceKm ==> e in s[..n]
  {
    forall i, e | 0 <= i < n && e in c && e.distanceKm < s[..n][i].distanceKm
      ensures e in s[..n]
    {
      assert e in multiset(s);
      var j :| 0 <= j < |s| && s[j] == e;
      assert j < n;
      assert s[..n][j] == e;
    }
  }

  /** The entries of a prefix at any distance are a prefix of the whole list's entries there. */
  lemma PrefixAtDistance(s: seq<Entry>, n: nat, k: real)
    requires n <= |s|
    ensures AtDistance(s[..n], k) <= AtDistance(s, k)
  {
    assert s == s[..n] + s[n..];
    AtDistanceAppend(s[..n], s[n..], k);
  }

  /** With `top_n` at least the number of candidates, every candidate is reported. */
  lemma FindMatchesComplete(store: Store, q: Query, dist: Distance, round: Rounding, i: nat)
    requires i < |store| && Eligible(store[i], q, dist)
    requires q.topN >= |Candidates(store, q, dist, round)|
    ensures FindMatches(store, q, dist, round).Matched?
    ensures ToEntry(store[i], q, dist, round) in FindMatches(store, q, dist, round).drivers
    ensures multiset(FindMatches(store, q, dist, round).drivers) == multiset(Candidates(store, q, dist, round))
  {
    var c := Candidates(store, q, dist, round);
    assert ToEntry(store[i], q, dist, round) in multiset(SortByDistance(c));
  }
}

=== FILE: memory_store.dfy ===
/**
 The JSON-file persistence helpers (tools/memory_store.py).

 Each file holds a list of dictionaries and is modelled as an optional sequence
 of records: `None` when the file does not exist. A save reads the whole list,
 transforms it and writes it back; the model returns the list written.
 */
module MemoryStore {
  import opened PyValues

  /** The contents of one JSON file, or `None` when it does not exist. */
  type File = Option<seq<Record>>

  /** get_all_drivers / get_all_ride_requests: a missing file reads as the empty list. */
  function ReadAll(file: File): (records: seq<Record>)
    ensures file.None? ==> records == []
    ensures file.Some? ==> records == file.value
  {
    file.GetOr([])
  }

  /** save_ride_request: the list written back is the old list with the request appended. */
  function SaveRideRequest(file: File, request: Record): (written: seq<Record>)
    ensures |written| == |ReadAll(file)| + 1
    ensures written[..|ReadAll(file)|] == ReadAll(file)
    ensures written[|ReadAll(file)|] == request
    ensures file.None? ==> written == [request]
  {
    ReadAll(file) + [request]
  }

  // ---------------------------------------------------------------- drivers keyed by id

  /** A record whose "id" equals `id` under Python's `==`. */
  predicate HasId(m: Record, id: Value) {
    "id" in m && Eq(m["id"], id)
  }

  /** Every record can be indexed by "id" without a KeyError. */
  predicate AllHaveIds(records: seq<Record>) {
    forall i :: 0 <= i < |records| ==> "id" in records[i]
  }

  /** The records carrying `id`, in file order. */
  function WithId(records: seq<Record>, id: Value): seq<Record> {
    if |records| == 0 then []
    else (if HasId(records[0], id) then [records[0]] else []) + WithId(records[1..], id)
  }

  /** `[d for d in drivers if d["id"] != id]`. */
  function KeepOthers(records: seq<Record>, id: Value): (kept: seq<Record>)
    ensures |kept| <= |records|
  {
    if |records| == 0 then []
    else
      var rest := KeepOthers(records[1..], id);
      if HasId(records[0], id) then rest else [records[0]] + rest
  }

  /** The filter keeps exactly the stored records that do not carry the id. */
  lemma {:induction false} KeepOthersSpec(records: seq<Record>, id: Value)
    ensures var kept := KeepOthers(records, id);
      && (forall i :: 0 <= i < |kept| ==> kept[i] in records && !HasId(kept[i], id))
      && (forall i :: 0 <= i < |records| && !HasId(records[i], id) ==> records[i] in kept)
    decreases |records|
  {
    if |records| > 0 {
      KeepOthersSpec(records[1..], id);
      assert forall m :: m in records[1..] ==> m in records;
      assert forall i :: 1 <= i < |records| ==> records[i] == records[1..][i - 1];
    }
  }

  /**
   save_driver: drop every record with the new record's id, then append it.
   Indexing a stored record without "id" raises KeyError; the new record's own
   "id" is only looked up while scanning, so it is needed only when the file
   holds at least one record.
   */
  function SaveDriver(file: File, data: Record): (r: Result<seq<Record>>)
    ensures r.Raised? <==> !AllHaveIds(ReadAll(file)) || (|ReadAll(file)| > 0 && "id" !in data)
    ensures r.Raised? ==> r.exc == KeyError("id")
    ensures r.Ok? ==> |r.value| > 0 && r.value[|r.value| - 1] == data
    ensures r.Ok? ==> |r.value| <= |ReadAll(file)| + 1
    ensures r.Ok? && "id" in data ==> r.value == KeepOthers(ReadAll(file), data["id"]) + [data]
  {
    var drivers := ReadAll(file);
    if !AllHaveIds(drivers) || (|drivers| > 0 && "id" !in data) then Raised(KeyError("id"))
    else if |drivers| == 0 then Ok([data])
    else Ok(KeepOthers(drivers, data["id"]) + [data])
  }

  /**
   The filter keeps file order: the records kept from a concatenation are those kept
   from each part, one after the other.
   */
  lemma {:induction false} KeepOthersAppend(a: seq<Record>, b: seq<Record>, id: Value)
    ensures KeepOthers(a + b, id) == KeepOthers(a, id) + KeepOthers(b, id)
    decreases |a|
  {
    if |a| == 0 {
      assert a + b == b;
    } else {
      assert (a + b)[1..] == a[1..] + b;
      KeepOthersAppend(a[1..], b, id);
    }
  }

  /** A single record is kept exactly when it does not carry the id. */
  lemma KeepOthersSingle(m: Record, id: Value)
    ensures KeepOthers([m], id) == if HasId(m, id) then [] else [m]
  {
    assert [m][1..] == [];
  }

  lemma {:induction false} WithIdAppend(a: seq<Record>, b: seq<Record>, id: Value)
    ensures WithId(a + b, id) == WithId(a, id) + WithId(b, id)
    decreases |a|
  {
    if |a| == 0 {
      assert a + b == b;
    } else {
      var ab := a + b;
      assert ab[0] == a[0] && ab[1..] == a[1..] + b;
      WithIdAppend(a[1..], b, id);
      var head := if HasId(a[0], id) then [a[0]] else [];
      assert WithId(ab, id) == head + WithId(a[1..] + b, id);
      assert WithId(a, id) == head + WithId(a[1..], id);
    }
  }

  /** Filtering out `id` removes all of its records and leaves every other id's records as they were. */
  lemma {:induction false} WithIdKeepOthers(records: seq<Record>, id: Value, other: Value)
    ensures WithId(KeepOthers(records, id), id) == []
    ensures !Eq(other, id) ==> WithId(KeepOthers(records, id), other) == WithId(records, other)
    decreases |records|
  {
    if |records| > 0 {
      WithIdKeepOthers(records[1..], id, other);
      var m := records[0];
      var rest := KeepOthers(records[1..], id);
      if !HasId(m, id) {
        assert ([m] + rest)[1..] == rest;
        if "id" in m {
          EqIsEquivalence(m["id"], other, id);
          EqIsEquivalence(other, m["id"], id);
        }
      }
    }
  }

  /** After save_driver exactly one record carries the id: the new one, written last. */
  lemma SaveDriverLeavesOneRecord(file: File, data: Record)
    requires SaveDriver(file, data).Ok?
    requires "id" in data
    ensures WithId(SaveDriver(file, data).value, data["id"]) == [data]
  {
    var drivers := ReadAll(file);
    var id := data["id"];
    EqIsEquivalence(id, id, id);
    assert WithId([data], id) == [data] by {
      assert [data][1..] == [];
    }
    if |drivers| > 0 {
      WithIdKeepOthers(drivers, id, id);
      WithIdAppend(KeepOthers(drivers, id), [data], id);
    }
  }

  /** save_driver keeps the records of every other id, with their contents and their relative order. */
  lemma SaveDriverKeepsOthers(file: File, data: Record, other: Value)
    requires SaveDriver(file, data).Ok?
    requires "id" in data && !Eq(other, data["id"])
    ensures WithId(SaveDriver(file, data).value, other) == WithId(ReadAll(file), other)
  {
    var drivers := ReadAll(file);
    var id := data["id"];
    assert WithId([data], other) == [] by {
      assert [data][1..] == [];
      EqIsEquivalence(id, other, id);
    }
    if |drivers| > 0 {
      WithIdKeepOthers(drivers, id, other);
      WithIdAppend(KeepOthers(drivers, id), [data], other);
    }
  }

  /** Saving the same record twice writes the same list as saving it once. */
  lemma SaveDriverIdempotent(file: File, data: Record)
    requires SaveDriver(file, data).Ok?
    requires "id" in data
    ensures SaveDriver(Some(SaveDriver(file, data).value), data) == SaveDriver(file, data)
  {
    var once := SaveDriver(file, data).value;
    var id := data["id"];
    EqIsEquivalence(id, id, id);
    var kept := if |ReadAll(file)| == 0 then [] else KeepOthers(ReadAll(file), id);
    KeepOthersSpec(ReadAll(file), id);
    assert once == kept + [data];
    KeepOthersAppendMatch(kept, data, id);
    forall i | 0 <= i < |once|
      ensures "id" in once[i]
    {
      if i < |kept| {
        var j :| 0 <= j < |ReadAll(file)| && ReadAll(file)[j] == kept[i];
        assert "id" in ReadAll(file)[j];
      }
    }
  }

  /**
   A record without "id" is accepted into an empty or missing file, after which
   every later save_driver raises KeyError.
   */
  lemma SaveDriverWithoutIdBlocksLaterSaves(file: File, data: Record, next: Record)
    requires ReadAll(file) == [] && "id" !in data
    ensures SaveDriver(file, data) == Ok([data])
    ensures SaveDriver(Some([data]), next) == Raised(KeyError("id"))
  {
    assert [data][0] == data;
    assert !AllHaveIds([data]);
  }

  /** Filtering a list that already lacks `id`, followed by a record with `id`, drops just that record. */
  lemma {:induction false} KeepOthersAppendMatch(kept: seq<Record>, data: Record, id: Value)
    requires forall i :: 0 <= i < |kept| ==> !HasId(kept[i], id)
    requires HasId(data, id)
    ensures KeepOthers(kept + [data], id) == kept
    decreases |kept|
  {
    if |kept| == 0 {
      assert kept + [data] == [data];
      assert [data][1..] == [];
    } else {
      assert (kept + [data])[1..] == kept[1..] + [data];
      KeepOthersAppendMatch(kept[1..], data, id);
    }
  }
}

=== FILE: py_values.dfy ===
/**
 The slice of Python's runtime that the carpool services depend on: the JSON-like
 scalars their dictionaries hold, Python's `==` on them, the `int(...)` conversion
 applied to seat counts, `str(n)` for the numbers embedded in generated ids, and
 the `s[:n]` slice used to truncate result lists.
 */
module PyValues {

  datatype Option<+T> = None | Some(value: T) {
    function GetOr(default: T): T {
      match this
      case Some(v) => v
      case None => default
    }
  }

  /** The exceptions the modelled code can raise. */
  datatype Exception = KeyError(key: string) | TypeError | ValueError

  /** Either a value or the exception that interrupted the computation. */
  datatype Result<+T> = Ok(value: T) | Raised(exc: Exception)

  /** A scalar carried by a request body, a driver record or a JSON file. */
  datatype Value = IntV(i: int) | FloatV(f: real) | BoolV(b: bool) | StrV(s: string) | NoneV

  /** A dictionary with string keys, as read from a request body or a JSON file. */
  type Record = map<string, Value>

  /** `isinstance(v, (int, float))`; `bool` is a subclass of `int` in Python. */
  predicate IsNumber(v: Value) {
    v.IntV? || v.FloatV? || v.BoolV?
  }

  /** `isinstance(v, int)`, which also holds of `True` and `False`. */
  predicate IsInt(v: Value) {
    v.IntV? || v.BoolV?
  }

  function NumericValue(v: Value): real
    requires IsNumber(v)
  {
    match v
    case IntV(i) => i as real
    case FloatV(f) => f
    case BoolV(b) => if b then 1.0 else 0.0
  }

  /** Python's `==` between two scalars: numbers compare by value across int, float and bool. */
  predicate Eq(a: Value, b: Value) {
    if IsNumber(a) && IsNumber(b) then NumericValue(a) == NumericValue(b)
    else if a.StrV? && b.StrV? then a.s == b.s
    else a.NoneV? && b.NoneV?
  }

  /** Python's `==` on scalars is an equivalence relation. */
  lemma EqIsEquivalence(a: Value, b: Value, c: Value)
    ensures Eq(a, a)
    ensures Eq(a, b) ==> Eq(b, a)
    ensures Eq(a, b) && Eq(b, c) ==> Eq(a, c)
  {
  }

  /** `dict.get(key, default)`. */
  function Get(m: Record, key: string, default: Value): (v: Value)
    ensures key in m ==> v == m[key]
    ensures key !in m ==> v == default
  {
    if key in m then m[key] else default
  }

  // ---------------------------------------------------------------- int(...)

  /** `int(f)` on a float drops the fractional part, rounding toward zero. */
  function TruncateTowardZero(f: real): (r: int)
    ensures 0.0 <= f ==> r as real <= f < r as real + 1.0
    ensures f < 0.0 ==> r as real - 1.0 < f <= r as real
  {
    if f >= 0.0 then f.Floor else -((-f).Floor)
  }

  predicate IsDigit(c: char) {
    '0' <= c <= '9'
  }

  /** A non-empty run of ASCII decimal digits. */
  predicate IsDigits(s: string) {
    |s| > 0 && forall i :: 0 <= i < |s| ==> IsDigit(s[i])
  }

  function DigitValue(c: char): nat
    requires IsDigit(c)
  {
    (c as int - '0' as int) as nat
  }

  function DigitChar(d: nat): (c: char)
    requires d < 10
    ensures IsDigit(c) && DigitValue(c) == d
  {
    ('0' as int + d) as char
  }

  /** The number a run of decimal digits denotes. */
  function DigitsValue(s: string): nat
    requires forall i :: 0 <= i < |s| ==> IsDigit(s[i])
  {
    if |s| == 0 then 0 else 10 * DigitsValue(s[..|s| - 1]) + DigitValue(s[|s| - 1])
  }

  /** `str(n)` for a non-negative int: its decimal digits, without leading zeros. */
  function Decimal(n: nat): (s: string)
    ensures IsDigits(s)
    ensures DigitsValue(s) == n
    ensures s[0] == '0' ==> s == "0"
  {
    if n < 10 then [DigitChar(n)]
    else
      var s := Decimal(n / 10) + [DigitChar(n % 10)];
      assert s[..|s| - 1] == Decimal(n / 10);
      s
  }

  /** `int(s)` on a string: an optional sign followed by decimal digits, else `ValueError`. */
  function ParseInt(s: string): Result<int> {
    if |s| > 0 && (s[0] == '-' || s[0] == '+') then
      if IsDigits(s[1..]) then
        Ok(if s[0] == '-' then -(DigitsValue(s[1..]) as int) else DigitsValue(s[1..]))
      else Raised(ValueError)
    else if IsDigits(s) then Ok(DigitsValue(s))
    else Raised(ValueError)
  }

  /** `int(v)`: the conversion the services apply to every seat count they receive. */
  function ToInt(v: Value): (r: Result<int>)
    ensures IsInt(v) ==> r == Ok(TruncateTowardZero(NumericValue(v)))
    ensures v.FloatV? ==> r == Ok(TruncateTowardZero(v.f))
    ensures v.NoneV? ==> r == Raised(TypeError)
  {
    match v
    case IntV(i) => Ok(i)
    case BoolV(b) => Ok(if b then 1 else 0)
    case FloatV(f) => Ok(TruncateTowardZero(f))
    case StrV(s) => ParseInt(s)
    case NoneV => Raised(TypeError)
  }

  /** `int(str(n)) == n`: a printed count reads back as itself, with or without a sign. */
  lemma ParseDecimal(n: nat)
    ensures ParseInt(Decimal(n)) == Ok(n)
    ensures ParseInt("-" + Decimal(n)) == Ok(-(n as int))
    ensures ParseInt("+" + Decimal(n)) == Ok(n)
  {
    var s := Decimal(n);
    assert s[0] != '-' && s[0] != '+';
    assert ("-" + s)[1..] == s;
    assert ("+" + s)[1..] == s;
  }

  // ---------------------------------------------------------------- slicing

  /** Python's `s[:n]`, where a negative `n` counts from the end. */
  function SliceTo<T>(s: seq<T>, n: int): (r: seq<T>)
    ensures r <= s
    ensures 0 <= n ==> |r| == if n < |s| then n else |s|
    ensures n < 0 ==> |r| == if |s| + n > 0 then |s| + n else 0
  {
    if 0 <= n then (if n < |s| then s[..n] else s)
    else if |s| + n > 0 then s[..|s| + n]
    else []
  }
}

=== FILE: ride_matcher.dfy ===
/**
 The city-pair driver registry (tools/ride_matcher.py).

 `DRIVERS` is a process-wide list of `Driver` objects, mirrored into a JSON file
 of `Driver.dict()` records and rehydrated from that file with `Driver(**d)` when
 the module is imported. Searches match exact origin and destination city and a
 seat count, and append a log record to the ride-request file.

 The model threads the list and both files through every operation as one
 `State` value.
 */
module RideMatcher {
  import opened PyValues
  import MemoryStore

  /** A Driver object. Only `seats` is converted (`int(seats)`); every other field is kept as given. */
  datatype Driver = Driver(id: Value, vehicle: Value, seats: int, lat: Value, lon: Value,
                           destLat: Value, destLon: Value, startTime: Value,
                           fromCity: Value, toCity: Value)

  /** The driver list, drivers.json and ride_requests.json. */
  datatype State = State(drivers: seq<Driver>, driversFile: MemoryStore.File, requestsFile: MemoryStore.File)

  /** Driver.__init__'s parameters in declaration order, which is also the order register_driver reads them. */
  const FieldNames: seq<string> :=
    ["id", "vehicle", "seats", "lat", "lon", "dest_lat", "dest_lon", "start_time", "from_city", "to_city"]

  /**
   The same names as a set literal, and the split into required and optional names. Keyword
   checks test membership in these literals, which the verifier decides far more cheaply than
   membership in the sequence; ParameterSetsAgree ties the three to FieldNames.
   */
  const Parameters: set<string> :=
    {"id", "vehicle", "seats", "lat", "lon", "dest_lat", "dest_lon", "start_time", "from_city", "to_city"}

  /** The two parameters with a default (`None`). */
  const OptionalFields: set<string> := {"from_city", "to_city"}

  /** The eight parameters without a default. */
  const RequiredFields: set<string> := {"id", "vehicle", "seats", "lat", "lon", "dest_lat", "dest_lon", "start_time"}

  const DriverRegistered := "driver_registered"

  lemma ParameterSetsAgree()
    ensures Parameters == set k | k in FieldNames
    ensures RequiredFields == Parameters - OptionalFields && OptionalFields <= Parameters
  {
  }

  // ---------------------------------------------------------------- Driver.dict / Driver(**d)

  /** Driver.dict(). */
  function ToRecord(d: Driver): (m: Record)
    ensures m.Keys == Parameters
    ensures "seats" in m && m["seats"] == IntV(d.seats)
  {
    map["id" := d.id, "vehicle" := d.vehicle, "seats" := IntV(d.seats), "lat" := d.lat, "lon" := d.lon,
        "dest_lat" := d.destLat, "dest_lon" := d.destLon, "start_time" := d.startTime,
        "from_city" := d.fromCity, "to_city" := d.toCity]
  }

  /** Keyword arguments `Driver(**m)` accepts: no unknown name, and every parameter without a default. */
  predicate AcceptsKeywords(m: Record) {
    m.Keys <= Parameters && RequiredFields <= m.Keys
  }

  /** Driver(**m): a TypeError for a bad keyword set, otherwise whatever `int(seats)` raises or the driver. */
  function FromRecord(m: Record): (r: Result<Driver>)
    ensures r.Ok? <==> AcceptsKeywords(m) && ToInt(m["seats"]).Ok?
    ensures !AcceptsKeywords(m) ==> r == Raised(TypeError)
    ensures r.Ok? ==> && r.value.seats == ToInt(m["seats"]).value
                      && r.value.id == m["id"] && r.value.vehicle == m["vehicle"]
                      && r.value.fromCity == Get(m, "from_city", NoneV)
                      && r.value.toCity == Get(m, "to_city", NoneV)
  {
    if !AcceptsKeywords(m) then Raised(TypeError)
    else match ToInt(m["seats"])
      case Raised(e) => Raised(e)
      case Ok(n) =>
        Ok(Driver(m["id"], m["vehicle"], n, m["lat"], m["lon"], m["dest_lat"], m["dest_lon"], m["start_time"],
                  Get(m, "from_city", NoneV), Get(m, "to_city", NoneV)))
  }

  /** `Driver(**d.dict())` rebuilds every field of `d`. */
  lemma {:induction false} DictRoundTrip(d: Driver)
    ensures FromRecord(ToRecord(d)) == Ok(d)
  {
    var m := ToRecord(d);
    ToRecordAccepted(d);
    ToRecordLookups(d);
    assert ToInt(m["seats"]) == Ok(d.seats);
    assert Get(m, "from_city", NoneV) == d.fromCity && Get(m, "to_city", NoneV) == d.toCity;
  }

  lemma ToRecordAccepted(d: Driver)
    ensures AcceptsKeywords(ToRecord(d))
  {
    assert ToRecord(d).Keys == Parameters;
  }

  lemma ToRecordLookups(d: Driver)
    ensures var m := ToRecord(d);
      && m["id"] == d.id && m["vehicle"] == d.vehicle && m["seats"] == IntV(d.seats)
      && m["lat"] == d.lat && m["lon"] == d.lon && m["dest_lat"] == d.destLat && m["dest_lon"] == d.destLon
      && m["start_time"] == d.startTime && m["from_city"] == d.fromCity && m["to_city"] == d.toCity
  {
  }

  /** Rehydrating a record and serialising it again returns the record, with seats normalised by `int`
      and the missing optional cities filled in as `None`. */
  lemma RecordRoundTrip(m: Record)
    requires FromRecord(m).Ok?
    ensures var m' := ToRecord(FromRecord(m).value);
      && (forall k :: k in m && k != "seats" ==> m'[k] == m[k])
      && m'["seats"] == IntV(ToInt(m["seats"]).value)
      && (forall k :: k in m' && k !in m ==> k in OptionalFields && m'[k] == NoneV)
  {
    var d := FromRecord(m).value;
    forall k | k in m && k != "seats"
      ensures ToRecord(d)[k] == m[k]
    {
      assert k in FieldNames;
    }
  }

  // ---------------------------------------------------------------- persistence

  /** `[d.dict() for d in DRIVERS]`, the list save_drivers_to_file writes. */
  function Snapshot(drivers: seq<Driver>): (records: seq<Record>)
    ensures |records| == |drivers|
    ensures forall i :: 0 <= i < |drivers| ==> records[i] == ToRecord(drivers[i])
  {
    seq(|drivers|, i requires 0 <= i < |drivers| => ToRecord(drivers[i]))
  }

  /** `for d in persisted: DRIVERS.append(Driver(**d))`, stopping at the first record that raises. */
  function Rehydrate(records: seq<Record>): (r: Result<seq<Driver>>)
    ensures r.Ok? ==> |r.value| == |records|
    ensures r.Ok? ==> forall i :: 0 <= i < |records| ==> FromRecord(records[i]) == Ok(r.value[i])
    ensures r.Ok? <==> forall i :: 0 <= i < |records| ==> FromRecord(records[i]).Ok?
  {
    if |records| == 0 then Ok([])
    else match FromRecord(records[0])
      case Raised(e) => Raised(e)
      case Ok(d) =>
        match Rehydrate(records[1..])
        case Raised(e) => Raised(e)
        case Ok(rest) => Ok([d] + rest)
  }

  /** The import-time load: load_drivers_from_file (a missing file is `[]`) followed by rehydration. */
  function LoadDrivers(file: MemoryStore.File): (r: Result<seq<Driver>>)
    ensures file.None? ==> r == Ok([])
    ensures file.Some? ==> (r.Ok? <==> forall i :: 0 <= i < |file.value| ==> FromRecord(file.value[i]).Ok?)
    ensures file.Some? && r.Ok? ==> |r.value| == |file.value|
  {
    Rehydrate(MemoryStore.ReadAll(file))
  }

  /** Whatever save_drivers_to_file wrote, the next start reads back as the same driver list. */
  lemma {:induction false} PersistThenLoad(drivers: seq<Driver>)
    ensures LoadDrivers(Some(Snapshot(drivers))) == Ok(drivers)
    ensures LoadDrivers(None) == Ok([])
  {
    SnapshotRehydrates(drivers);
  }

  /** Rehydrating the dicts of a driver list, one `Driver(**d)` per record, gives the list back. */
  lemma {:induction false} SnapshotRehydrates(drivers: seq<Driver>)
    ensures Rehydrate(Snapshot(drivers)) == Ok(drivers)
    decreases |drivers|
  {
    if |drivers| > 0 {
      assert Snapshot(drivers)[1..] == Snapshot(drivers[1..]);
      SnapshotRehydrates(drivers[1..]);
      DictRoundTrip(drivers[0]);
      assert drivers == [drivers[0]] + drivers[1..];
    }
  }

  // ---------------------------------------------------------------- demo drivers

  /** The demo dictionary for index `i`, built at wall-clock second `now`. */
  function DemoRecord(i: nat, now: int): Record {
    map["id" := StrV("Driver" + Decimal(i)), "vehicle" := StrV("Sedan"), "seats" := IntV(4),
        "lat" := FloatV(28.6139), "lon" := FloatV(77.2090), "dest_lat" := FloatV(19.0760), "dest_lon" := FloatV(72.8777),
        "start_time" := IntV(now + 900), "from_city" := StrV("Delhi"), "to_city" := StrV("Mumbai")]
  }

  /** The driver seed_demo_drivers appends for index `i`. */
  function DemoDriver(i: nat, now: int): Driver {
    Driver(StrV("Driver" + Decimal(i)), StrV("Sedan"), 4, FloatV(28.6139), FloatV(77.2090),
           FloatV(19.0760), FloatV(72.8777), IntV(now + 900), StrV("Delhi"), StrV("Mumbai"))
  }

  /** `Driver(**d)` on a demo dictionary cannot raise and builds the demo driver. */
  lemma DemoRecordRehydrates(i: nat, now: int)
    ensures FromRecord(DemoRecord(i, now)) == Ok(DemoDriver(i, now))
  {
    var m := DemoRecord(i, now);
    assert forall k :: k in FieldNames ==> k in m;
  }

  /**
   seed_demo_drivers(n): append `Driver1` ... `Driver{n}`, each built by `Driver(**d)` from its
   demo dictionary. `clock(i)` is `int(time.time())` as read while building the i-th dictionary.
   */
  function SeedDemoDrivers(drivers: seq<Driver>, n: int, clock: nat -> int): (r: seq<Driver>)
    ensures |r| == |drivers| + (if n > 0 then n else 0)
    ensures r[..|drivers|] == drivers
    ensures forall i :: |drivers| <= i < |r| ==>
      && r[i].id == StrV("Driver" + Decimal(i - |drivers| + 1))
      && r[i].seats == 4 && r[i].vehicle == StrV("Sedan")
      && r[i].fromCity == StrV("Delhi") && r[i].toCity == StrV("Mumbai")
      && r[i].startTime == IntV(clock(i - |drivers| + 1) + 900)
  {
    var count := if n > 0 then n else 0;
    var seeded := seq(count, k requires 0 <= k => DemoDriver(k + 1, clock(k + 1)));
    var r := drivers + seeded;
    assert forall k :: 0 <= k < count ==> seeded[k] == DemoDriver(k + 1, clock(k + 1));
    assert forall i :: |drivers| <= i < |r| ==> r[i] == DemoDriver(i - |drivers| + 1, clock(i - |drivers| + 1));
    r
  }

  /** The seeded drivers have pairwise distinct ids. */
  lemma SeededIdsDistinct(drivers: seq<Driver>, n: int, clock: nat -> int, j: nat, k: nat)
    requires j < k < n
    ensures SeedDemoDrivers(drivers, n, clock)[|drivers| + j].id != SeedDemoDrivers(drivers, n, clock)[|drivers| + k].id
  {
    var a, b := "Driver" + Decimal(j + 1), "Driver" + Decimal(k + 1);
    assert a[6..] == Decimal(j + 1) && b[6..] == Decimal(k + 1);
  }

  // ---------------------------------------------------------------- registration

  /** The first of `keys` absent from `data`: the subscript that raises KeyError first. */
  function FirstMissing(data: Record, keys: seq<string>): (r: Option<string>)
    ensures r.None? <==> forall k :: k in keys ==> k in data
    ensures r.Some? ==> r.value in keys && r.value !in data
    ensures r.Some? ==> exists j :: 0 <= j < |keys| && keys[j] == r.value && forall i :: 0 <= i < j ==> keys[i] in data
  {
    if |keys| == 0 then None
    else if keys[0] !in data then Some(keys[0])
    else FirstMissing(data, keys[1..])
  }

  /** {"status": "driver_registered", "driver_id": ...}. */
  datatype RegisterReply = RegisterReply(status: string, driverId: Value)

  /** The Driver register_driver builds from the ten values it read and the converted seat count. */
  function DriverOf(data: Record, seats: int): (d: Driver)
    requires forall k :: k in FieldNames ==> k in data
  {
    assert "dest_lon" in FieldNames && "to_city" in FieldNames;
    Driver(data["id"], data["vehicle"], seats, data["lat"], data["lon"], data["dest_lat"], data["dest_lon"],
           data["start_time"], data["from_city"], data["to_city"])
  }

  /** The built driver's dict repeats every submitted field except the converted seat count. */
  lemma DriverOfFields(data: Record, seats: int)
    requires forall k :: k in FieldNames ==> k in data
    ensures ToRecord(DriverOf(data, seats))["seats"] == IntV(seats)
    ensures forall k :: k in FieldNames && k != "seats" ==> ToRecord(DriverOf(data, seats))[k] == data[k]
  {
    var m := ToRecord(DriverOf(data, seats));
    ToRecordLookups(DriverOf(data, seats));
    forall k | k in FieldNames && k != "seats"
      ensures m[k] == data[k]
    {
    }
  }

  /** register_driver: read all ten keys, build the Driver, append it and rewrite drivers.json. */
  function Register(st: State, data: Record): (r: Result<(State, RegisterReply)>)
    ensures FirstMissing(data, FieldNames).Some? ==> r == Raised(KeyError(FirstMissing(data, FieldNames).value))
    ensures r.Ok? <==> (forall k :: k in FieldNames ==> k in data) && ToInt(data["seats"]).Ok?
    ensures r.Ok? ==>
      var (st', reply) := r.value;
      && |st'.drivers| == |st.drivers| + 1
      && st'.drivers[..|st.drivers|] == st.drivers
      && ToRecord(st'.drivers[|st.drivers|])["seats"] == IntV(ToInt(data["seats"]).value)
      && (forall k :: k in FieldNames && k != "seats" ==> ToRecord(st'.drivers[|st.drivers|])[k] == data[k])
      && st'.driversFile == Some(Snapshot(st'.drivers))
      && st'.requestsFile == st.requestsFile
      && reply == RegisterReply(DriverRegistered, data["id"])
  {
    match FirstMissing(data, FieldNames)
    case Some(k) => Raised(KeyError(k))
    case None =>
      assert "seats" in FieldNames && "id" in FieldNames;
      match ToInt(data["seats"])
      case Raised(e) => Raised(e)
      case Ok(n) =>
        var d := DriverOf(data, n);
        DriverOfFields(data, n);
        var drivers := st.drivers + [d];
        Ok((State(drivers, Some(Snapshot(drivers)), st.requestsFile), RegisterReply(DriverRegistered, d.id)))
  }

  /** Registration never checks ids: registering an existing id leaves two drivers with it. */
  lemma RegisterAllowsDuplicateIds(st: State, data: Record, i: nat)
    requires i < |st.drivers| && Register(st, data).Ok?
    requires data["id"] == st.drivers[i].id
    ensures var drivers' := Register(st, data).value.0.drivers;
      drivers'[i].id == drivers'[|st.drivers|].id
  {
    var drivers' := Register(st, data).value.0.drivers;
    assert drivers'[i] == drivers'[..|st.drivers|][i];
  }

  // ---------------------------------------------------------------- city-pair search

  /** The test applied to each driver: same cities under `==` and enough seats. */
  predicate Serves(d: Driver, from: Value, to: Value, seatsNeeded: int) {
    Eq(d.fromCity, from) && Eq(d.toCity, to) && d.seats >= seatsNeeded
  }

  /** The drivers whose dicts form the `matches` list, scanned in registry order. */
  function CityMatches(drivers: seq<Driver>, from: Value, to: Value, seatsNeeded: int): (matched: seq<Driver>)
    ensures |matched| <= |drivers|
  {
    if |drivers| == 0 then []
    else
      var d := drivers[|drivers| - 1];
      CityMatches(drivers[..|drivers| - 1], from, to, seatsNeeded) + if Serves(d, from, to, seatsNeeded) then [d] else []
  }

  /** A driver's dict is returned if and only if the driver serves the trip; nothing else is returned. */
  lemma {:induction false} CityMatchesSpec(drivers: seq<Driver>, from: Value, to: Value, seatsNeeded: int)
    ensures var matched := CityMatches(drivers, from, to, seatsNeeded);
      && |matched| <= |drivers|
      && (forall j :: 0 <= j < |matched| ==> Serves(matched[j], from, to, seatsNeeded))
      && (forall d :: d in matched ==> d in drivers)
      && (forall i :: 0 <= i < |drivers| && Serves(drivers[i], from, to, seatsNeeded) ==> drivers[i] in matched)
    decreases |drivers|
  {
    if |drivers| > 0 {
      var front := drivers[..|drivers| - 1];
      CityMatchesSpec(front, from, to, seatsNeeded);
      assert forall i :: 0 <= i < |front| ==> front[i] == drivers[i];
    }
  }

  /**
   Registry order is kept and nothing is dropped: the matches of a concatenation are the
   matches of each part, one after the other.
   */
  lemma {:induction false} CityMatchesAppend(a: seq<Driver>, b: seq<Driver>, from: Value, to: Value, seatsNeeded: int)
    ensures CityMatches(a + b, from, to, seatsNeeded) == CityMatches(a, from, to, seatsNeeded) + CityMatches(b, from, to, seatsNeeded)
    decreases |b|
  {
    if |b| == 0 {
      assert a + b == a;
    } else {
      var ab, front := a + b, b[..|b| - 1];
      assert ab[..|ab| - 1] == a + front;
      assert ab[|ab| - 1] == b[|b| - 1];
      CityMatchesAppend(a, front, from, to, seatsNeeded);
    }
  }

  /** A single driver is matched exactly when it serves the trip. */
  lemma CityMatchesSingle(d: Driver, from: Value, to: Value, seatsNeeded: int)
    ensures CityMatches([d], from, to, seatsNeeded) == if Serves(d, from, to, seatsNeeded) then [d] else []
  {
    assert [d][..0] == [];
  }

  /** The record logged for one search. */
  function SearchLogRecord(from: Value, to: Value, seatsNeeded: int, millis: nat, seconds: int): Record {
    map["id" := StrV("req_" + Decimal(millis)), "from" := from, "to" := to,
        "seats" := IntV(seatsNeeded), "timestamp" := IntV(seconds)]
  }

  /**
   find_matches: `int(data.get("seats", 1))` may raise before anything happens; otherwise the
   matches are returned and one request record is appended to ride_requests.json. `millis` and
   `seconds` are the two clock readings.
   */
  function FindMatches(st: State, data: Record, millis: nat, seconds: int): (r: Result<(State, seq<Record>)>)
    ensures r.Raised? <==> ToInt(Get(data, "seats", IntV(1))).Raised?
    ensures "seats" !in data ==> r.Ok?
    ensures r.Ok? ==>
      var (st', rides) := r.value;
      var seatsNeeded := if "seats" in data then ToInt(data["seats"]).value else 1;
      && rides == Snapshot(CityMatches(st.drivers, Get(data, "from", NoneV), Get(data, "to", NoneV), seatsNeeded))
      && st'.drivers == st.drivers && st'.driversFile == st.driversFile
      && st'.requestsFile == Some(MemoryStore.ReadAll(st.requestsFile) + [SearchLogRecord(Get(data, "from", NoneV), Get(data, "to", NoneV), seatsNeeded, millis, seconds)])
  {
    var from, to := Get(data, "from", NoneV), Get(data, "to", NoneV);
    match ToInt(Get(data, "seats", IntV(1)))
    case Raised(e) => Raised(e)
    case Ok(seatsNeeded) =>
      var rides := Snapshot(CityMatches(st.drivers, from, to, seatsNeeded));
      var log := SearchLogRecord(from, to, seatsNeeded, millis, seconds);
      Ok((st.(requestsFile := Some(MemoryStore.SaveRideRequest(st.requestsFile, log))), rides))
  }

  // ---------------------------------------------------------------- seat lock (module version)

  /** The driver the `for d in DRIVERS: if d.id == driver_id` loops stop at. */
  function FirstWithId(drivers: seq<Driver>, id: Value): (r: Option<nat>)
    ensures r.Some? ==> r.value < |drivers| && Eq(drivers[r.value].id, id)
    ensures r.Some? ==> forall j :: 0 <= j < r.value ==> !Eq(drivers[j].id, id)
    ensures r.None? <==> forall j :: 0 <= j < |drivers| ==> !Eq(drivers[j].id, id)
  {
    if |drivers| == 0 then None
    else if Eq(drivers[0].id, id) then Some(0)
    else match FirstWithId(drivers[1..], id)
      case None => None
      case Some(k) => Some(k + 1)
  }

  /** Which driver an id resolves to depends only on the drivers' ids. */
  lemma {:induction false} FirstWithIdSameIds(a: seq<Driver>, b: seq<Driver>, id: Value)
    requires |a| == |b| && forall j :: 0 <= j < |a| ==> a[j].id == b[j].id
    ensures FirstWithId(a, id) == FirstWithId(b, id)
    decreases |a|
  {
    if |a| > 0 {
      FirstWithIdSameIds(a[1..], b[1..], id);
    }
  }

  /** Seats taken from the i-th driver, with drivers.json rewritten to match. */
  function Decrement(st: State, i: nat, seatsBooked: int): (st': State)
    requires i < |st.drivers|
    ensures |st'.drivers| == |st.drivers|
    ensures st'.drivers[i] == st.drivers[i].(seats := st.drivers[i].seats - seatsBooked)
    ensures forall j :: 0 <= j < |st.drivers| && j != i ==> st'.drivers[j] == st.drivers[j]
    ensures st'.driversFile == Some(Snapshot(st'.drivers)) && st'.requestsFile == st.requestsFile
  {
    var drivers := st.drivers[i := st.drivers[i].(seats := st.drivers[i].seats - seatsBooked)];
    State(drivers, Some(Snapshot(drivers)), st.requestsFile)
  }

  /**
   confirm_ride as written in this module: after decrementing and saving, it calls the
   `None` that save_drivers_to_file returns, which raises TypeError. The result is
   `Ok(None)` for an unknown id and `Ok(Some(false))` for too few seats.
   */
  function ConfirmRideAsWritten(st: State, driverId: Value, seatsBooked: int): (r: (State, Result<Option<bool>>))
    ensures FirstWithId(st.drivers, driverId).None? ==> r == (st, Ok(None))
    ensures r.1 != Ok(Some(true))
    ensures r.1 == Ok(Some(false)) ==> r.0 == st
    ensures r.1.Raised? <==> FirstWithId(st.drivers, driverId).Some? && st.drivers[FirstWithId(st.drivers, driverId).value].seats >= seatsBooked
    ensures FirstWithId(st.drivers, driverId).Some? && st.drivers[FirstWithId(st.drivers, driverId).value].seats < seatsBooked ==>
      r == (st, Ok(Some(false)))
    ensures r.1.Raised? ==> r.1.exc == TypeError && r.0 == Decrement(st, FirstWithId(st.drivers, driverId).value, seatsBooked)
  {
    match FirstWithId(st.drivers, driverId)
    case None => (st, Ok(None))
    case Some(i) =>
      if st.drivers[i].seats >= seatsBooked then (Decrement(st, i, seatsBooked), Raised(TypeError))
      else (st, Ok(Some(false)))
  }
}
